=== FILE: README.md ===
# MinePlusPlus in Dafny

This project is a Dafny model of the rules core of MinePlusPlus, a minesweeper game written in C++. It covers five parts:

- **The board** (`src/Board.cpp`, module `Boards`, with `Grid` and `Cells`). This is a class over a cell array that holds:
  - the mine, flag and open counters;
  - the circular "frontline" queue that drives the flood-fill reveal.

  The model covers grid addressing and the 3x3 neighbour range (the centre included, in raster order, with `size_t` wrap-around). It also covers Floyd-style mine placement, first-click mine relocation, flag toggling, and `open` with its chord gating and flood fill.
- **The older board snapshot's neighbour visitor** (`src/Board.h`, module `Snapshot`): the nested `dr`/`dc` loops of `foreachNeighbour`.
- **The game-phase state machine** (`src/Game/Minesweeper.cpp`, module `Game`): the phases Empty, Ready, Playing, Lost and Won.
- **The event bus** (`src/Event/EventBus.cpp`, module `Events`): subscription lists keyed by event id.
- **The layer stack** (`src/Layer/LayerStack.cpp`, module `Layers`): top-down event dispatch, bottom-up update and render, `swap` and `remove`.

The C++ objects whose fields change in place are Dafny classes: `Board`, `Minesweeper`, `EventBus` and `LayerStack`. Their loops are Dafny loops with invariants. Each method is proved against specification functions and predicates over `cells[..]`:

- `AdjacencyOk`: every `adjacentMines` equals the number of mines in the cell's 3x3 block.
- `Counted`: the open and flag counters equal the numbers of opened and flagged cells.
- `MinesAre` and `FloydSample`: the placed mines are exactly Floyd's sample of the draws.
- `RevealState`: the state of a reveal in progress, relative to the cells at its start.
- `QueueShape`: the circular buffer holds the abstract queue in order.

Lemmas then state what the source promises of those functions: round trips, uniqueness and counts. For the flood fill they state both directions: every cell at the end of a path of unopened zero cells from a seed opens (completeness), and no other cell opens (soundness). `OpenResult` is the resulting exact outcome of `open`, and it determines the new cells uniquely.

Foreign code takes part through parameters:

- The random draws of `placeMines` and `makeSafe` are parameters whose ranges match the source's distributions.
- Subscriber callbacks and layers are opaque identifiers.
- The Yes/No answer of each layer is an input sequence.
- The callbacks that are invoked are returned, in call order.

## Model

| member | source | states |
|---|---|---|
| Grid.Wrap | src/Board.cpp:6-9 | size_t arithmetic modulo 2^64: in-range values are kept, and -1 becomes SIZE_MAX |
| Grid.IsSizeValid | src/Board.cpp:91-99 | a valid size has both dimensions non-zero and a cell count below the vector's maximum size |
| Grid.SizeValidIff | src/Board.cpp:91-99 | isSizeValid holds exactly when both dimensions are non-zero and the product is below the maximum size; the overflow guard rejects nothing more |
| Grid.OverflowGuardRedundant | src/Board.cpp:95-97 | when the product is below the maximum size, x < SIZE_MAX / y holds as well |
| Grid.AreCoordinatesValid | src/Board.cpp:108-112 | only the upper bounds are checked, since the coordinates are unsigned; valid coordinates lie on a non-empty board, and their row-major index addresses one of its cells |
| Grid.ToIndex | src/Board.cpp:119-123 | the index x + y * width of valid coordinates lies inside the cell array |
| Grid.ToCoordinates | src/Board.cpp:125-133 | (index % width, index / width) of a valid index are valid coordinates |
| Grid.CoordinatesRoundTrip | src/Board.cpp:119-133 | toCoordinates(toIndex(c)) == c for valid c |
| Grid.IndexRoundTrip | src/Board.cpp:119-133 | toIndex(toCoordinates(i)) == i for valid i |
| Grid.ToIndexInjective | src/Board.cpp:119-123 | distinct valid coordinates have distinct indices |
| Grid.ValidShifts | src/Board.cpp:27-35 | no more kept shifts than offsets, all of them valid coordinates |
| Grid.Shift | src/Board.cpp:6-9 | `Vec2s::operator+` in size_t: a component that stays in range is the exact sum, and one that steps below zero becomes SIZE_MAX |
| Grid.ShiftExact | src/Board.cpp:6-9 | a unit shift of a valid position that lands on the board did not wrap around |
| Grid.ShiftInjective | src/Board.cpp:13-35 | two unit offsets that land on the same in-bounds cell are the same offset |
| Grid.ValidShiftsMember | src/Board.cpp:27-35 | v is kept exactly when v is valid and is the shift of c by one of the offsets |
| Grid.ValidShiftsNoDup | src/Board.cpp:27-35 | distinct unit offsets around a valid cell keep no cell twice |
| Grid.ValidShiftsAll | src/Board.cpp:27-35 | when every shift lands on the board, every offset contributes one cell |
| Grid.OffsetsComplete | src/Board.cpp:13-24 | every unit offset, (0, 0) included, is among the nine offsets |
| Grid.OffsetsUnitAndDistinct | src/Board.cpp:13-24 | the nine offsets are distinct unit offsets |
| Grid.NeighboursMember | src/Board.cpp:13-41 | the range around a valid c holds exactly the in-bounds cells of its 3x3 block, c included; wrapped positions never appear |
| Grid.NeighboursNoDup | src/Board.cpp:13-41 | the range holds no cell twice |
| Grid.NeighboursCount | src/Board.cpp:13-41 | the range holds 1 to 9 cells, and exactly 9 away from every edge |
| Grid.NeighbourIndices | src/Board.cpp:280-283 | the indices of the range lie inside the cell array |
| Grid.NeighbourIndicesMember | src/Board.cpp:13-41 | j is in the range of i exactly when the two cells lie in one 3x3 block |
| Grid.NeighbourIndicesNoDup | src/Board.cpp:13-41 | the index form of the range holds no index twice |
| Grid.NeighbourIndicesSymmetric | src/Board.cpp:13-41 | j is in the range of i exactly when i is in the range of j |
| Grid.SelfNeighbour | src/Board.cpp:19 | every cell is in its own range, through offset (0, 0) |
| Grid.ValidShiftsStep | src/Board.cpp:30-35 | one more offset appends its shift exactly when that shift lands on the board |
| Grid.NeighbourRange | src/Board.cpp:27-41 | the constructor fills nine slots: first the range in raster order, then INVALID_VEC2S padding |
| Grid.RangeEnd | src/Board.cpp:48-56 | end() is the first padding slot, or the array's end when there is none |
| Grid.NeighboursOf | src/Board.cpp:43-56 | iterating from begin() to end() yields exactly the range, because padding never equals a real neighbour |
| Cells.AdjacencyBound | src/Board.h:10 | a correct count is at most 9, so it fits the 5-bit adjacentMines field |
| Cells.MinedCountsItself | src/Board.cpp:275-284 | because the block includes the cell itself, a mined cell counts at least one mine |
| Cells.ZeroCountNoMine | src/Board.cpp:248-254 | a cell that counts zero mines has no mined neighbour, so the flood fill never opens a mine |
| Cells.BlankAdjacency | src/Board.cpp:180-186 | a board with no mine and every count zero satisfies the adjacency invariant |
| Cells.AdjacencyKept | src/Board.cpp:265-294 | changes that keep every mine and every count (flagging, opening) keep the adjacency invariant |
| Cells.OpenedUnminedCount | src/Game/Minesweeper.cpp:83 | when no opened cell is mined, the opened cells are at most as many as the unmined ones, and as many exactly when every unmined cell is opened |
| Cells.MinesAroundSame | src/Board.cpp:275-284 | a block's mine count depends only on the mine flags |
| Cells.UnmineNoUnderflow | src/Board.cpp:174-177 | every cell in a mined cell's block counts at least one mine, so the decrement cannot wrap |
| Cells.MineFlags | src/Board.cpp:275-284 | mineCell mines exactly the given cell and leaves opened, flagged and frontline alone |
| Cells.MinePreservesAdjacency | src/Board.cpp:275-284 | mining an unmined cell and incrementing its block keeps every count right |
| Cells.MineCount | src/Board.cpp:275-284 | mining adds exactly one mine |
| Cells.UnmineFlags | src/Board.cpp:172-177 | unmining clears exactly that mine flag and leaves the other fields alone |
| Cells.UnminePreservesAdjacency | src/Board.cpp:172-177 | removing a mine and decrementing its block keeps every count right |
| Cells.UnmineCount | src/Board.cpp:172-177 | unmining removes exactly one mine |
| Boards.FloydSample | src/Board.cpp:145-151 | after k steps, every chosen index is below start + k |
| Boards.FloydSampleSize | src/Board.cpp:145-151 | k steps choose k distinct indices, so mineCount cells are mined |
| Boards.FloydStep | src/Board.cpp:147-150 | mining r, or i when r is already mined, mines exactly the index the sample adds at that step |
| Boards.NthUnmined | src/Board.cpp:163-170 | the n-th unmined cell is unmined and has n - 1 unmined cells before it |
| Boards.NthUnminedUnique | src/Board.cpp:163-170 | that cell is the only unmined one with n - 1 unmined cells before it |
| Boards.FlagTwice | src/Board.cpp:265-273 | flagging twice restores the cell, and each flag moves the flag count by exactly +1 or -1 (0 on an opened cell) |
| Boards.FrontlineCapacityAsWritten | src/Board.cpp:296-309 | the initial queue capacity (min(w, h) * 4 - 2) / 4 is at most the smaller side |
| Boards.NarrowBoardHasNoFrontline | src/Board.cpp:296-309 | a 1 x h board is a valid size, yet its queue capacity as written is 0 |
| Boards.FrontlineCapacity | src/Board.cpp:296-309 | the corrected capacity is at least one slot, and equals the written formula when both sides are at least 2 |
| Boards.BlockBound | src/Board.cpp:280-283 | every cell of a block counts at most 9 mines, so incrementing it stays within the 5-bit field |
| Boards.BlockFloor | src/Board.cpp:174-177 | every cell of a mined cell's block counts at least 1 |
| Boards.BlankBoard | src/Board.cpp:180-186 | a cleared board has both counters right, the adjacency invariant, no markers and no mine |
| Boards.RingSlot | src/Board.cpp:322-324 | a slot k places after a valid slot of the circular buffer is a valid slot |
| Boards.NextSlot | src/Board.cpp:324 | (a + 1) % size wraps to 0 only past the last slot |
| Boards.FloodReachesPath | src/Board.cpp:232-261 | after a closed reveal, every cell on a path of unopened zero cells from an opened start is opened: the whole reachable zero region and its numbered border |
| Boards.RevealOpenNumbered | src/Board.cpp:286-294 | opening an unqueued numbered cell keeps the reveal state, and the mine result is or-ed with that cell's mine |
| Boards.RevealPush | src/Board.cpp:316-320 | queueing an unopened, unqueued cell keeps the queue distinct and the markers equal to the queue |
| Boards.RevealPop | src/Board.cpp:237-240 | popping and opening the oldest cell keeps the reveal state; only a zero cell still owes its block |
| Boards.MarkKeepsCounted | src/Board.cpp:320 | setting or clearing a frontline marker changes neither counter |
| Boards.RevealClose | src/Board.cpp:244-260 | once the popped zero cell's block is covered, every newly opened zero cell has its block opened or queued |
| Boards.SeedReached | src/Board.cpp:219-222 | an unflagged seed of the reveal is reached by the one-cell path |
| Boards.ReachedStep | src/Board.cpp:241-259 | every block cell of a reached, unopened zero cell is reached too: the only way the flood fill spreads |
| Boards.ExplainedOpen | src/Board.cpp:237-240 | opening a queued cell keeps the reveal sound, and that cell was reached and unopened when the reveal began |
| Boards.RevealRegion | src/Board.cpp:232-261 | a closed, sound reveal with nothing queued and every seed opened or flagged opens a previously unopened cell exactly when a zero path from an unflagged seed ends there |
| Boards.OpenSeeds | src/Board.cpp:198-230 | the reveal starts from the target's block when the target is opened (a chord), else from the target alone; the target is always a seed |
| Boards.OpenResultUnique | src/Board.cpp:188-263 | the outcome of open leaves no choice: two results of the same open from the same cells are equal |
| Boards.Board.constructor | src/Board.cpp:82-89 | the default board is consistent, with size (0, 0), no cells and mine count 0, its arrays freshly allocated |
| Boards.Board.EasyBoard | src/Board.cpp:58-64 | 9 x 9 with 10 mines, every cell blank, its arrays freshly allocated |
| Boards.Board.MediumBoard | src/Board.cpp:66-72 | 16 x 16 with 40 mines, every cell blank, its arrays freshly allocated |
| Boards.Board.HardBoard | src/Board.cpp:74-80 | 30 x 16 with 99 mines, every cell blank, its arrays freshly allocated |
| Boards.Board.SetMineCount | src/Board.cpp:135-139 | the target mine count is set |
| Boards.Board.Resize | src/Board.cpp:101-106 | a valid size is taken, with every cell blank and the board consistent |
| Boards.Board.Clear | src/Board.cpp:180-186 | fresh blank cells of the current size, zero counters and a fresh empty queue |
| Boards.Board.SetupFrontline | src/Board.cpp:296-301 | a fresh buffer of the corrected capacity, with the queue empty |
| Boards.Board.MineCell | src/Board.cpp:275-284 | the unmined cell becomes mined, its block counts one more, every count stays right, and the mine total grows by one |
| Boards.Board.PlaceMines | src/Board.cpp:141-152 | on a board without mines, the mined cells are exactly Floyd's sample of the draws, mineCount of them; counts stay right and nothing else changes |
| Boards.Board.PlaceOne | src/Board.cpp:147-150 | one pass of the loop: the chosen cell is always unmined, and the sample grows by one |
| Boards.Board.MineNthUnmined | src/Board.cpp:162-170 | the countdown over unmined cells mines exactly the n-th unmined cell; past it the size_t counter wraps and never reaches 0 again |
| Boards.Board.CountdownStep | src/Board.cpp:166-170 | one pass of that loop keeps the countdown state |
| Boards.Board.UnmineCell | src/Board.cpp:172-177 | the cell loses its mine, its block counts one fewer, and every count stays right |
| Boards.Board.MakeSafe | src/Board.cpp:154-178 | MadeSafe: an unmined target changes nothing; for a mined target, with 1 <= n <= the number of unmined cells, the mines afterwards are exactly the old mines without the target plus the n-th unmined cell; the mine total, the counts and everything but the mines stay as they were |
| Boards.Board.Flag | src/Board.cpp:265-273 | the new cells are the old ones with the target replaced by its specification FlagCell (an opened cell unchanged, any other with its flag inverted), flagCount drops by one when the cell was flagged and grows by one when it was not, the board stays consistent, and FlagTwice proves that flagging twice restores the cell |
| Boards.Board.OpenCell | src/Board.cpp:286-294 | an unopened cell opens and loses its flag; openCount grows by one, both counters stay exact, and the cell's mine is returned |
| Boards.Board.IsFrontlineEmpty | src/Board.cpp:311-314 | begFrontline == endFrontline exactly when the queue is empty |
| Boards.Board.IsWon | src/Game/Minesweeper.cpp:83 | with exact counters and no mine opened, `openCount == cells - mineCount` holds exactly when every unmined cell has been opened |
| Boards.Board.PushFrontline | src/Board.cpp:316-351 | the index is appended to the FIFO and its marker set; the buffer grows when full and keeps a free slot |
| Boards.Board.GrowFrontline | src/Board.cpp:326-350 | doubling the buffer and moving one part by the old size keeps the queue's contents and order |
| Boards.Board.PopFrontline | src/Board.cpp:353-361 | the oldest index is returned and removed, and its marker is cleared |
| Boards.Board.CountFlaggedAround | src/Board.cpp:202-210 | the number of flagged cells in the block |
| Boards.Board.RevealNumbered | src/Board.cpp:221 | openCell on an unqueued, reached numbered cell during a reveal keeps the reveal state sound and opens only that cell |
| Boards.Board.RevealQueue | src/Board.cpp:222 | pushFrontline of a reached cell during a reveal keeps the reveal state sound and queues only that cell |
| Boards.Board.RevealNext | src/Board.cpp:237-240 | the oldest queued cell is popped and opened, and nothing else changes; the reveal stays sound, and the cell was reached and unopened at its start |
| Boards.Board.ChordReveal | src/Board.cpp:217-223 | the chord loop's body: an unopened, unflagged block cell is opened when it counts a mine and queued otherwise, as a seed of a sound reveal; no other cell changes |
| Boards.Board.ChordStep | src/Board.cpp:217-223 | one pass of the chord loop: the block cell ends opened, queued or flagged, and the reveal stays sound |
| Boards.Board.ChordNeighbours | src/Board.cpp:215-224 | every cell of the block ends opened, queued or flagged, every queued cell counts zero, and every cell opened or queued ends a zero path from an unflagged block cell |
| Boards.Board.ExpandNeighbour | src/Board.cpp:246-259 | the inner flood loop's body: the neighbour of a reached zero cell ends opened or queued, no mine is opened, the reveal stays sound, and no other cell changes |
| Boards.Board.ExpandCell | src/Board.cpp:246-259 | one pass of the inner flood loop: the neighbour of a zero cell ends opened or queued, no mine is opened, and the reveal stays sound |
| Boards.Board.ExpandFrom | src/Board.cpp:244-260 | every cell of a reached zero cell's block ends opened or queued, so the reveal is closed again and stays sound |
| Boards.Board.Flood | src/Board.cpp:235-261 | the loop empties the queue, keeps the reveal closed (every zero path from an opened cell is opened) and sound (every opened cell ends a zero path from a seed); a lone numbered start opens only itself |
| Boards.Board.FloodStep | src/Board.cpp:237-260 | one pass opens at least one more cell and keeps the flood invariant |
| Boards.Board.Open | src/Board.cpp:188-263 | OpenResult: a flagged target, or an opened one whose flag count differs from its count, changes nothing and returns false. Otherwise the target ends opened, nothing stays queued, and a previously unopened cell opens exactly when a path of unopened zero cells from an unflagged seed (OpenSeeds) ends there; OpenResultUnique makes this the whole new board. An unopened numbered target opens alone. The board stays consistent: counters exact, no cell both opened and flagged. The result is true exactly when a mine was opened |
| Boards.Board.Chord | src/Board.cpp:198-226 | a chord on a satisfied opened cell: a previously unopened cell opens exactly when a zero path from an unflagged block cell ends there |
| Boards.Board.OpenCovered | src/Board.cpp:227-261 | an unopened, unflagged target is opened, and another cell opens exactly when a zero path from the target ends there; a numbered target opens alone |
| Boards.Board.QueueTarget | src/Board.cpp:229 | the target alone is queued and marked, starting a sound reveal seeded by it; no other cell changes |
| Game.IsGameOver | src/Game/Minesweeper.h:17 | the game is over in Lost and Won; Open and Flag change neither phase nor board once it is over |
| Game.DealtAfterClear | src/Game/Minesweeper.cpp:51-52 | clearing then placing mines deals the board: nothing opened or flagged, mines at Floyd's sample |
| Game.MineShownByReveal | src/Game/Minesweeper.cpp:78-82 | after a reveal from a board showing no mine, a mine shows exactly when the reveal opened one, and the mine total is unchanged |
| Game.FlagKeeps | src/Game/Minesweeper.cpp:101-102 | flagging changes neither the mine total nor whether a mine shows or any cell is open |
| Game.Minesweeper.constructor | src/Game/Minesweeper.cpp:6-10 | a freshly allocated, unsized board with mine count 0, in Empty |
| Game.Minesweeper.SetEasy | src/Game/Minesweeper.cpp:12-16 | a freshly allocated 9 x 9 board with 10 mines, every cell blank, in Empty |
| Game.Minesweeper.SetMedium | src/Game/Minesweeper.cpp:18-22 | a freshly allocated 16 x 16 board with 40 mines, every cell blank, in Empty |
| Game.Minesweeper.SetHard | src/Game/Minesweeper.cpp:24-28 | a freshly allocated 30 x 16 board with 99 mines, every cell blank, in Empty |
| Game.Minesweeper.Resize | src/Game/Minesweeper.cpp:30-40 | an invalid size, or a Playing game, changes nothing; otherwise the board takes the size, blank, and the game is Empty; the board's arrays are kept or freshly allocated |
| Game.Minesweeper.Restart | src/Game/Minesweeper.cpp:42-55 | an unsized board goes to Empty and is left alone; otherwise the board is cleared and dealt, and the game is Ready |
| Game.Minesweeper.Open | src/Game/Minesweeper.cpp:57-88 | Empty restarts first, and invalid coordinates change nothing more. From Empty the board is dealt (Floyd's sample of the draws), then made safe and opened. The first click's board is MadeSafe then OpenResult of the dealt board (FirstOpenResult); a Playing board is OpenResult of the old one. Lost and Won are terminal. Playing becomes Lost exactly when the reveal opened a mine, and Won, when not lost, exactly when isWon holds. The board's cell and queue arrays are each kept or freshly allocated |
| Game.Minesweeper.Click | src/Game/Minesweeper.cpp:62-88 | the part after the restart: only Ready or Playing and valid coordinates act; from Ready the clicked cell ends mine-free and the board is FirstOpenResult (makeSafe, then open); from Playing it is OpenResult; the phase rules above; the cell array is kept and the queue buffer kept or freshly allocated |
| Game.Minesweeper.FirstClick | src/Game/Minesweeper.cpp:67-73 | makeSafe on the clicked cell, then Playing: the board is MadeSafe, so the mine moved to the n-th unmined cell, the cell is mine-free and nothing but mines changed |
| Game.Minesweeper.Reveal | src/Game/Minesweeper.cpp:78-87 | the board's open, with the new board its OpenResult; Lost exactly when it opened a mine, otherwise Won exactly when isWon holds; the cell array is kept and the queue buffer kept or freshly allocated |
| Game.Minesweeper.Conclude | src/Game/Minesweeper.cpp:78-87 | after the board's open, Lost exactly when a mine was opened (so a mine shows); otherwise Won exactly when isWon holds, else still Playing |
| Game.Minesweeper.Flag | src/Game/Minesweeper.cpp:90-103 | Empty restarts first; only Ready or Playing flags, and only a cell on the board; Lost and Won change nothing; the board's arrays are kept or freshly allocated |
| Game.Minesweeper.Mark | src/Game/Minesweeper.cpp:95-103 | the part after the restart: the one cell's flag is toggled, or nothing changes; the board's arrays are kept |
| Snapshot.Visits | src/Board.h:28-44 | every position handed to the callback is on the board; out-of-range and wrapped positions are skipped |
| Snapshot.VisitNext | src/Board.h:30-38 | step (dr, dc) of the nested loops appends the position (col + dc, row + dr) exactly when it is on the board |
| Snapshot.VisitIndexNext | src/Board.h:34-41 | the same step, stated on the indices passed to the callback |
| Snapshot.OffsetIsStep | src/Board.h:30-33 | step t of the dr-outer, dc-inner loops is the board's t-th offset |
| Snapshot.VisitsAreShifts | src/Board.h:28-44 | the first t steps visit what the first t offsets of the board's neighbour range give |
| Snapshot.VisitsComplete | src/Board.h:28-44 | all nine steps visit exactly the board's neighbour range, in its order |
| Snapshot.VisitOne | src/Board.h:34-41 | one pass of the inner body: the index is passed to the callback when the position is on the board, and skipped otherwise |
| Snapshot.ForeachNeighbour | src/Board.h:28-44 | the callback receives exactly the indices of the in-bounds 3x3 block around (col, row), centre included, in row-major order |
| Snapshot.ForeachNeighbourAt | src/Board.h:47-52 | the index overload is the coordinate overload at (index % width, index / width), and is the board's neighbour range of that index |
| Snapshot.VisitIsNeighbourRange | src/Board.h:27-44 | around a valid cell the visit is the neighbour range by index, with 1 to 9 calls and exactly 9 away from every edge |
| Events.FindHandle | src/Event/EventBus.cpp:6-13 | the first entry with the handle, or the list's end when there is none |
| Events.SubscribedShape | src/Event/EventBus.cpp:3-15 | a present handle has its subscriber replaced in place (length and other entries kept); a new handle is appended at the end; handles stay unique |
| Events.UnsubscribedShape | src/Event/EventBus.cpp:17-28 | the length drops by one exactly when the handle is present; exactly that one entry goes; an absent handle changes nothing |
| Events.UnsubscribedUnique | src/Event/EventBus.cpp:17-28 | with unique handles, unsubscribing leaves no entry with the handle, and the rest stay unique |
| Events.EventBus.Subscribe | src/Event/EventBus.cpp:3-15 | only that event id's list changes, to its subscribed form, and handles stay unique |
| Events.EventBus.Unsubscribe | src/Event/EventBus.cpp:17-28 | only that event id's list changes, to its unsubscribed form |
| Events.EventBus.Publish | src/Event/EventBus.cpp:30-37 | each subscriber of the id is invoked once, in list order; no list changes |
| Layers.Dispatched | src/Layer/LayerStack.cpp:3-13 | every slot called lies below the top |
| Layers.DispatchedIff | src/Layer/LayerStack.cpp:3-13 | a slot is called exactly when no slot above it consumed the event, and the calls go strictly downwards |
| Layers.DispatchedStops | src/Layer/LayerStack.cpp:3-13 | only the last slot called may have consumed; the walk ends there or at the bottom; an empty stack calls nothing |
| Layers.LiveIdsMembers | src/Layer/LayerStack.cpp:15-27 | update and render reach exactly the layers in non-null slots, one call per such slot |
| Layers.FirstIndex | src/Layer/LayerStack.cpp:29-38 | the first slot holding the layer, or the end when there is none |
| Layers.RemoveFirstCount | src/Layer/LayerStack.cpp:40-52 | the length drops by one exactly when there is a match, and exactly one occurrence goes |
| Layers.LayerStack.HandleEvent | src/Layer/LayerStack.cpp:3-13 | the slots called are top down, stopping right after the first Yes; on an empty stack size - 1 wraps and nothing is called |
| Layers.LayerStack.ForEachLayer | src/Layer/LayerStack.cpp:15-27 | the non-null layers, bottom to top |
| Layers.LayerStack.Swap | src/Layer/LayerStack.cpp:29-38 | only the first slot holding the layer takes the substitute; with no match nothing changes |
| Layers.LayerStack.Remove | src/Layer/LayerStack.cpp:40-52 | only the first matching slot is erased, the rest kept in order |

## Left out

- The random generator is not modelled. The draws of `placeMines` and the `n` of `makeSafe` are parameters whose ranges match the distributions. Uniformity of the sampled mine sets is a probabilistic property and is not stated.
- The board header that goes with `src/Board.cpp` is not part of this model. The members it declares are modelled as follows:
  - `Vec2s`, `INVALID_VEC2S` (taken as `(SIZE_MAX, SIZE_MAX)`), the `frontline` field of `Cell` and `getNeigboursOf` (taken as iterating the `NeighbourRange`) follow their use in `src/Board.cpp`.
  - `std::vector<Cell>::max_size()` is fixed at 2^63 - 1.
- Boards.Board.IsWon: `isWon` is defined as `openCount == cells - mineCount`, since its body is not among the files modelled.
- Boards.Board.SetMineCount: requires at least one mine-free cell (`count < cells`). This stands in for `getMaxNumberOfMines()`, whose definition is not part of this model.
- Game.Minesweeper.Resize: requires a mine count below the new cell count. This is the same assumed bound; the source does not check it here.
- Boards.Board.PlaceMines: requires `Valid()` rather than `isSizeValid`. With size (0, 0) there are no cells and no mines, so the extra case is harmless.
- Boards.Board.SetupFrontline: uses the corrected capacity (at least one slot), not the capacity as written; see Findings.
- Boards.Board.GrowFrontline: the source moves the larger part of the buffer, while its comments say the smaller. The model follows the code; both orders keep the queue intact.
- Boards.Board.Open: the flood fill opens unopened flagged neighbours of zero cells, unflags them and decrements flagCount_, as src/Board.cpp:248 and :290-291 do; only the seeds of the reveal are skipped when flagged.
- Snapshot.ForeachNeighbour: `areCoordinatesValid(col, row)` and `toIndex(col, row)`, declared at src/Board.h:24-25 with bodies that are not part of this model, are taken as `col < width && row < height` and `col + row * width`.
- Game: the clock (`clock_.reset/restart/stop`) is not modelled.
- Layers.LayerStack.HandleEvent: requires every slot the walk reaches to hold a layer, since the source dereferences those slots without a null check.
- Layers.LayerStack.ForEachLayer: models both `update` and `render`, which share the same null-skipping walk. The `dt` and render target arguments go to foreign code and are not modelled.
- `processAsyncCommands` and `scheduleAsyncCommand` are declared for the layer stack but have no body in `src/Layer/LayerStack.cpp`, so they are not modelled.
- Events: subscriber callbacks, event data, `getId` and automatic handle generation are foreign or hash-based, and are not modelled. A subscriber is an opaque number.
- Rendering, input, menus, scenes and file loading lie outside the rules core and are not modelled.
- Several source functions are split into helper methods for the proofs. Each helper is one loop body or one branch of the same code:
  - `Board.open`: Chord, ChordNeighbours, ChordStep, ChordReveal, OpenCovered, QueueTarget, Flood, FloodStep, ExpandFrom, ExpandCell, ExpandNeighbour, RevealNumbered, RevealQueue, RevealNext.
  - `Board.placeMines`: PlaceOne.
  - `Board.makeSafe`: MineNthUnmined, CountdownStep, UnmineCell.
  - `Board.pushFrontline`: GrowFrontline.
  - `Minesweeper.open`: Click, FirstClick, Reveal, Conclude.
  - `Minesweeper.flag`: Mark.
  - `foreachNeighbour`: VisitOne.
- The reveal queue is also kept as a ghost sequence `queued`, the abstraction that the circular buffer is proved to hold.

## Findings

| source | as written | input that shows it | evidently intended | confidence | as-written member | corrected member |
|---|---|---|---|---|---|---|
| src/Board.cpp:296-309 | `setupFrontline` sizes the queue at `(min(w, h) * 4 - 2) / 4` slots | a 1 x h board (for example `resize({1, 5})`, a valid size): capacity 0, so the first `pushFrontline` fails `endFrontline_ < frontline_.size()` and would take `% 0` | a queue of at least one slot | not executed | Boards.NarrowBoardHasNoFrontline | Boards.FrontlineCapacity |

=== FILE: board.dfy ===
/**
 * The board rules engine (src/Board.cpp): one object owning the cell array,
 * the mine/flag/open counters and the circular "frontline" queue used by the
 * flood-fill reveal.
 */
module Boards {
  import opened Grid
  import opened Cells

  // ---------------------------------------------------------------------------
  // Specification of the board's contents
  // ---------------------------------------------------------------------------

  /** openCount and flagCount are the numbers of opened and flagged cells. */
  ghost predicate Counted(s: seq<Cell>, openCount: nat, flagCount: nat)
  {
    openCount == Count(s, IsOpened) && flagCount == Count(s, IsFlagged)
  }

  /** Between public calls: no cell is both opened and flagged, and no reveal marker is left set. */
  ghost predicate AtRest(s: seq<Cell>)
  {
    forall j :: 0 <= j < |s| ==> !(s[j].open && s[j].flagged) && !s[j].frontline
  }

  predicate NoMines(s: seq<Cell>)
  {
    forall j :: 0 <= j < |s| ==> !s[j].mined
  }

  /** Each draw of the k-th step of Floyd's sampling lies in [0, start + k]. */
  predicate FloydDraws(start: nat, draws: seq<nat>)
  {
    forall k :: 0 <= k < |draws| ==> draws[k] <= start + k
  }

  /**
   * Floyd's sampling of distinct indices: at step k the index i = start + k is
   * processed with a draw r in [0, i]; r is taken unless already taken, in
   * which case i itself is.
   */
  function FloydSample(start: nat, draws: seq<nat>, k: nat): (chosen: set<nat>)
    requires k <= |draws| && FloydDraws(start, draws)
    ensures forall j :: j in chosen ==> j < start + k
    decreases k
  {
    if k == 0 then {}
    else
      var prev := FloydSample(start, draws, k - 1);
      var r := draws[k - 1];
      prev + {if r in prev then start + k - 1 else r}
  }

  /** Each step adds an index not chosen before, so k steps choose k distinct indices. */
  lemma {:induction false} FloydSampleSize(start: nat, draws: seq<nat>, k: nat)
    requires k <= |draws| && FloydDraws(start, draws)
    ensures |FloydSample(start, draws, k)| == k
    decreases k
  {
    if k > 0 {
      FloydSampleSize(start, draws, k - 1);
    }
  }

  /** The mined cells of s are exactly the indices in `chosen`. */
  ghost predicate MinesAre(s: seq<Cell>, chosen: set<nat>)
  {
    forall j :: 0 <= j < |s| ==> (s[j].mined <==> j in chosen)
  }

  /** A step of placeMines mines the index Floyd's sampling adds at that step. */
  lemma FloydStep(prev: seq<Cell>, cur: seq<Cell>, start: nat, draws: seq<nat>, k: nat, index: nat)
    requires k < |draws| && FloydDraws(start, draws) && |cur| == |prev|
    requires MinesAre(prev, FloydSample(start, draws, k))
    requires draws[k] < |prev| && index == if prev[draws[k]].mined then start + k else draws[k]
    requires forall j :: 0 <= j < |prev| ==> cur[j].mined == (j == index || prev[j].mined)
    ensures MinesAre(cur, FloydSample(start, draws, k + 1))
  {
  }

  /** s and t differ at most in mine flags and adjacency counts. */
  ghost predicate StatusKept(s: seq<Cell>, t: seq<Cell>)
  {
    && |t| == |s|
    && forall j :: 0 <= j < |s| ==> t[j].open == s[j].open && t[j].flagged == s[j].flagged && t[j].frontline == s[j].frontline
  }

  /** t is s with the mine of cell `index` added, every count still right. */
  ghost predicate MinedAt(s: seq<Cell>, t: seq<Cell>, size: Vec2s, index: nat)
  {
    && AdjacencyOk(t, size) && StatusKept(s, t)
    && (forall j :: 0 <= j < |s| ==> t[j].mined == (j == index || s[j].mined))
    && Count(t, IsMined) == Count(s, IsMined) + 1
  }

  /** t is s with the mine of cell `index` removed, every count still right. */
  ghost predicate UnminedAt(s: seq<Cell>, t: seq<Cell>, size: Vec2s, index: nat)
  {
    && AdjacencyOk(t, size) && StatusKept(s, t)
    && (forall j :: 0 <= j < |s| ==> t[j].mined == (j != index && s[j].mined))
    && Count(t, IsMined) + 1 == Count(s, IsMined)
  }

  /** Changing only mines and counts keeps the counters and the rest state. */
  lemma StatusKeptValid(s: seq<Cell>, t: seq<Cell>, openCount: nat, flagCount: nat)
    requires StatusKept(s, t) && Counted(s, openCount, flagCount) && AtRest(s)
    ensures Counted(t, openCount, flagCount) && AtRest(t)
  {
    CountSame(t, s, IsOpened);
    CountSame(t, s, IsFlagged);
  }

  /** The index of the n-th (from 1) unmined cell in index order. */
  function NthUnmined(s: seq<Cell>, n: nat): (p: nat)
    requires 1 <= n <= Count(s, IsUnmined)
    ensures p < |s| && !s[p].mined && Count(s[..p], IsUnmined) == n - 1
    decreases |s|
  {
    var init := s[..|s| - 1];
    if n <= Count(init, IsUnmined) then
      var p := NthUnmined(init, n);
      assert init[..p] == s[..p];
      p
    else
      |s| - 1
  }

  /** Only one index has n - 1 unmined cells before it and is unmined itself. */
  lemma NthUnminedUnique(s: seq<Cell>, n: nat, q: nat)
    requires 1 <= n <= Count(s, IsUnmined)
    requires q < |s| && !s[q].mined && Count(s[..q], IsUnmined) == n - 1
    ensures q == NthUnmined(s, n)
  {
    var p := NthUnmined(s, n);
    if p < q {
      PrefixCountGrows(s, p + 1, q);
      PrefixCountStep(s, p);
    } else if q < p {
      PrefixCountGrows(s, q + 1, p);
      PrefixCountStep(s, q);
    }
  }

  lemma PrefixCountStep(s: seq<Cell>, i: nat)
    requires i < |s|
    ensures Count(s[..i + 1], IsUnmined) == Count(s[..i], IsUnmined) + (if s[i].mined then 0 else 1)
  {
    assert s[..i + 1][..i] == s[..i];
  }

  /**
   * The state of the makeSafe countdown after cells [0, i): before the n-th
   * unmined cell p nothing has changed and `left` counts the unmined cells
   * still to pass; after it, p is mined and `left` has wrapped below zero.
   */
  ghost predicate CountdownAt(s0: seq<Cell>, cur: seq<Cell>, size: Vec2s, n: nat, p: nat, i: nat, left: nat)
    requires i <= |s0|
  {
    && (i <= p ==> cur == s0 && left == n - Count(s0[..i], IsUnmined) >= 1)
    && (p < i ==> Count(s0[..i], IsUnmined) >= n)
    && (p < i ==> left == if Count(s0[..i], IsUnmined) == n then 0 else SizeLimit + n - Count(s0[..i], IsUnmined))
    && (p < i ==> MinedAt(s0, cur, size, p))
  }

  lemma {:induction false} PrefixCountGrows(s: seq<Cell>, i: nat, j: nat)
    requires i <= j <= |s|
    ensures Count(s[..i], IsUnmined) <= Count(s[..j], IsUnmined)
    decreases j - i
  {
    if i < j {
      PrefixCountStep(s, j - 1);
      PrefixCountGrows(s, i, j - 1);
    }
  }

  /** `flag` on one cell: an opened cell is left alone, any other has its flag inverted. */
  function FlagCell(c: Cell): Cell
  {
    if c.open then c else c.(flagged := !c.flagged)
  }

  /** Flagging twice restores the cell, and the flag count moves by exactly one each time. */
  lemma FlagTwice(s: seq<Cell>, i: nat)
    requires i < |s|
    ensures FlagCell(FlagCell(s[i])) == s[i]
    ensures !s[i].open ==>
              Count(s[i := FlagCell(s[i])], IsFlagged) == Count(s, IsFlagged) + (if s[i].flagged then -1 else 1)
    ensures s[i].open ==> Count(s[i := FlagCell(s[i])], IsFlagged) == Count(s, IsFlagged)
  {
    CountUpdate(s, i, FlagCell(s[i]), IsFlagged);
    assert s[i := s[i]] == s;
  }

  // ---------------------------------------------------------------------------
  // Frontline capacity
  // ---------------------------------------------------------------------------

  function Min(a: nat, b: nat): nat { if a <= b then a else b }

  /** `biggestFrontline() / 4`, the initial capacity computed by setupFrontline. */
  function FrontlineCapacityAsWritten(size: Vec2s): (cap: nat)
    requires IsSizeValid(size)
    ensures cap <= Min(size.x, size.y)
  {
    (Min(size.x, size.y) * 4 - 2) / 4
  }

  /**
   * A board one cell wide (or high) is a valid size, yet setupFrontline gives
   * it a queue of capacity 0: the first pushFrontline then fails its check
   * `endFrontline_ < frontline_.size()` (and would take a remainder by zero).
   */
  lemma NarrowBoardHasNoFrontline(height: SizeT)
    requires 0 < height < MaxVectorSize
    ensures IsSizeValid(Vec2s(1, height))
    ensures FrontlineCapacityAsWritten(Vec2s(1, height)) == 0
  {
    OverflowGuardRedundant(1, height);
  }

  /** The capacity the model uses: the same formula, but never below one slot. */
  function FrontlineCapacity(size: Vec2s): (cap: nat)
    requires IsSizeValid(size)
    ensures cap >= 1
    ensures Min(size.x, size.y) >= 2 ==> cap == FrontlineCapacityAsWritten(size)
  {
    var written := FrontlineCapacityAsWritten(size);
    if written == 0 then 1 else written
  }

  /** Every cell of a block counts at most nine mines, so one more still fits the 5-bit field. */
  lemma BlockBound(s: seq<Cell>, size: Vec2s, k: nat)
    requires AdjacencyOk(s, size) && k < |s|
    ensures forall m :: 0 <= m < |NeighbourIndices(size, k)| ==> s[NeighbourIndices(size, k)[m]].adjacentMines <= 9
  {
    forall m | 0 <= m < |NeighbourIndices(size, k)|
      ensures s[NeighbourIndices(size, k)[m]].adjacentMines <= 9
    {
      AdjacencyBound(s, size, NeighbourIndices(size, k)[m]);
    }
  }

  /**
   * c became d by setting the mine flag (when `flip`) and adding `delta` to
   * the count, nothing else.
   */
  ghost predicate BlockShifted(c: Cell, d: Cell, isTarget: bool, mined: bool, delta: int)
  {
    && d.mined == (if isTarget then mined else c.mined) && d.adjacentMines == c.adjacentMines + delta
    && d.open == c.open && d.flagged == c.flagged && d.frontline == c.frontline
  }

  lemma MineByBlock(s: seq<Cell>, t: seq<Cell>, size: Vec2s, k: nat)
    requires AdjacencyOk(s, size) && k < |s| && |t| == |s|
    requires forall j :: 0 <= j < |t| ==>
               BlockShifted(s[j], t[j], j == k, true, if j in NeighbourIndices(size, k) then 1 else 0)
    ensures t == Mine(s, size, k)
  {
  }

  lemma UnmineByBlock(s: seq<Cell>, t: seq<Cell>, size: Vec2s, k: nat)
    requires AdjacencyOk(s, size) && k < |s| && s[k].mined && |t| == |s|
    requires forall j :: 0 <= j < |t| ==>
               BlockShifted(s[j], t[j], j == k, false, if j in NeighbourIndices(size, k) then -1 else 0)
    ensures t == Unmine(s, size, k)
  {
  }

  /** Every cell of a mined cell's block counts that mine, so taking it away cannot underflow. */
  lemma BlockFloor(s: seq<Cell>, size: Vec2s, k: nat)
    requires AdjacencyOk(s, size) && k < |s| && s[k].mined
    ensures forall m :: 0 <= m < |NeighbourIndices(size, k)| ==> s[NeighbourIndices(size, k)[m]].adjacentMines >= 1
  {
    forall m | 0 <= m < |NeighbourIndices(size, k)|
      ensures s[NeighbourIndices(size, k)[m]].adjacentMines >= 1
    {
      UnmineNoUnderflow(s, size, k, NeighbourIndices(size, k)[m]);
    }
  }

  /** A cleared board: nothing opened, nothing flagged, no mine, every count zero. */
  lemma BlankBoard(s: seq<Cell>, size: Vec2s)
    requires |s| == size.x * size.y && forall j :: 0 <= j < |s| ==> s[j] == BlankCell
    ensures Counted(s, 0, 0) && AdjacencyOk(s, size) && AtRest(s) && NoMines(s)
  {
    CountNone(s, IsOpened);
    CountNone(s, IsFlagged);
    BlankAdjacency(s, size);
  }

  /** The slot `k` places after `b` in a circular buffer of `len` slots. */
  function RingSlot(b: nat, k: nat, len: nat): (r: nat)
    requires b < len && k <= len
    ensures r < len
  {
    if b + k < len then b + k else b + k - len
  }

  /** Advancing a position of the circular buffer by one wraps to 0 only past the last slot. */
  lemma NextSlot(a: nat, len: nat)
    requires a < len
    ensures (a + 1) % len == if a + 1 == len then 0 else a + 1
  {
  }

  // ---------------------------------------------------------------------------
  // Reveal (open) specification helpers
  // ---------------------------------------------------------------------------

  /**
   * What a reveal may do to the cells seen at its start: mines and counts are
   * untouched, opened cells stay opened, and a flag disappears only from a
   * cell that got opened.
   */
  ghost predicate RevealStep(s0: seq<Cell>, s: seq<Cell>)
  {
    && |s| == |s0|
    && forall j :: 0 <= j < |s| ==>
         && s[j].mined == s0[j].mined && s[j].adjacentMines == s0[j].adjacentMines
         && (s0[j].open ==> s[j].open)
         && s[j].flagged == (s0[j].flagged && !s[j].open)
  }

  /** Opened during this reveal. */
  ghost predicate NewlyOpened(s0: seq<Cell>, s: seq<Cell>, j: nat)
    requires |s0| == |s| && j < |s|
  {
    !s0[j].open && s[j].open
  }

  ghost predicate Covered(c: Cell)
  {
    c.open || c.frontline
  }

  /**
   * Every cell opened during this reveal that counts no mine (except `skip`,
   * whose neighbours are being processed) has its whole block opened or
   * queued.
   */
  ghost predicate ClosedExcept(s0: seq<Cell>, s: seq<Cell>, size: Vec2s, skip: int)
    requires |s0| == |s| == size.x * size.y
  {
    forall j, m ::
      0 <= j < |s| && j != skip && NewlyOpened(s0, s, j) && s[j].adjacentMines == 0 && 0 <= m < |NeighbourIndices(size, j)|
      ==> Covered(s[NeighbourIndices(size, j)[m]])
  }

  /** No index is queued twice (stated recursively, so that it unfolds only where needed). */
  ghost predicate Distinct(q: seq<nat>)
  {
    q == [] || (q[0] !in q[1..] && Distinct(q[1..]))
  }

  lemma {:induction false} DistinctAppend(q: seq<nat>, i: nat)
    requires Distinct(q) && i !in q
    ensures Distinct(q + [i])
  {
    if q != [] {
      assert (q + [i])[1..] == q[1..] + [i];
      DistinctAppend(q[1..], i);
    }
  }

  /** The reveal queue q holds distinct unopened cells, exactly those whose marker is set. */
  ghost predicate QueueMatches(s: seq<Cell>, q: seq<nat>)
  {
    && Distinct(q)
    && (forall k :: 0 <= k < |q| ==> q[k] < |s| && !s[q[k]].open && s[q[k]].frontline)
    && (forall j {:trigger s[j].frontline} :: 0 <= j < |s| && s[j].frontline ==> j in q)
  }

  ghost predicate MineOpenedIs(s0: seq<Cell>, s: seq<Cell>, mineOpened: bool)
    requires |s0| == |s|
  {
    mineOpened == exists j :: 0 <= j < |s| && NewlyOpened(s0, s, j) && s[j].mined
  }

  /** Covered cells stay covered, and cells opened in between are numbered ones (or `skip`). */
  lemma ClosedKept(s0: seq<Cell>, s: seq<Cell>, t: seq<Cell>, size: Vec2s, skip: int)
    requires |s0| == |s| == |t| == size.x * size.y
    requires ClosedExcept(s0, s, size, skip)
    requires forall j :: 0 <= j < |s| ==> Covered(s[j]) ==> Covered(t[j])
    requires forall j :: 0 <= j < |s| ==> t[j].adjacentMines == s[j].adjacentMines
    requires forall j :: 0 <= j < |s| && j != skip && !s[j].open && t[j].open ==> t[j].adjacentMines != 0
    requires forall j :: 0 <= j < |s| ==> s[j].open ==> t[j].open
    ensures ClosedExcept(s0, t, size, skip)
  {
  }

  /**
   * A path of the flood fill: consecutive cells are adjacent, and every cell
   * but the last was unopened at the start and counts no mine.
   */
  ghost predicate ZeroPath(s0: seq<Cell>, size: Vec2s, path: seq<nat>)
    requires |s0| == size.x * size.y
  {
    && |path| >= 1
    && (forall k :: 0 <= k < |path| ==> path[k] < |s0|)
    && (forall k :: 0 <= k < |path| - 1 ==>
          !s0[path[k]].open && s0[path[k]].adjacentMines == 0 && path[k + 1] in NeighbourIndices(size, path[k]))
  }

  /**
   * Completeness of the flood fill: if the reveal opened the start of a zero
   * path and is closed, it opened the whole path -- the zero region reachable
   * from the start and its numbered border.
   */
  lemma {:induction false} FloodReachesPath(s0: seq<Cell>, s: seq<Cell>, size: Vec2s, path: seq<nat>)
    requires |s0| == |s| == size.x * size.y
    requires RevealStep(s0, s) && ZeroPath(s0, size, path)
    requires ClosedExcept(s0, s, size, -1)
    requires forall j :: 0 <= j < |s| ==> !s[j].frontline
    requires s[path[0]].open
    ensures forall k :: 0 <= k < |path| ==> s[path[k]].open
    decreases |path|
  {
    if |path| > 1 {
      var head := path[0];
      assert NewlyOpened(s0, s, head);
      assert Covered(s[path[1]]);
      FloodReachesPath(s0, s, size, path[1..]);
      forall k | 0 <= k < |path|
        ensures s[path[k]].open
      {
        if k > 0 {
          assert path[k] == path[1..][k - 1];
        }
      }
    }
  }

  /** A zero path that starts at one of the reveal's unflagged seed cells. */
  ghost predicate SeededPath(s0: seq<Cell>, size: Vec2s, seeds: seq<nat>, path: seq<nat>)
    requires |s0| == size.x * size.y
  {
    ZeroPath(s0, size, path) && path[0] in seeds && !s0[path[0]].flagged
  }

  /** Cell j ends a zero path from a seed: the reveal is allowed to open it. */
  ghost predicate Reached(s0: seq<Cell>, size: Vec2s, seeds: seq<nat>, j: nat)
    requires |s0| == size.x * size.y
  {
    exists path :: SeededPath(s0, size, seeds, path) && path[|path| - 1] == j
  }

  /** An unflagged seed is reached by the one-cell path. */
  lemma SeedReached(s0: seq<Cell>, size: Vec2s, seeds: seq<nat>, j: nat)
    requires |s0| == size.x * size.y && j < |s0| && j in seeds && !s0[j].flagged
    ensures Reached(s0, size, seeds, j)
  {
    assert SeededPath(s0, size, seeds, [j]);
  }

  /** The block of a reached, unopened zero cell is reached too. */
  lemma ReachedStep(s0: seq<Cell>, size: Vec2s, seeds: seq<nat>, p: nat, j: nat)
    requires |s0| == size.x * size.y && p < |s0| && j < |s0|
    requires Reached(s0, size, seeds, p) && !s0[p].open && s0[p].adjacentMines == 0
    requires j in NeighbourIndices(size, p)
    ensures Reached(s0, size, seeds, j)
  {
    var path :| SeededPath(s0, size, seeds, path) && path[|path| - 1] == p;
    var longer := path + [j];
    forall k | 0 <= k < |longer| - 1
      ensures !s0[longer[k]].open && s0[longer[k]].adjacentMines == 0
      ensures longer[k + 1] in NeighbourIndices(size, longer[k])
    {
      if k < |path| - 1 {
        assert longer[k] == path[k] && longer[k + 1] == path[k + 1];
      } else {
        assert longer[k] == p && longer[k + 1] == j;
      }
    }
    assert SeededPath(s0, size, seeds, longer);
  }

  /**
   * Soundness of a reveal in progress: every cell opened or queued since its
   * start ends a zero path from a seed.
   */
  ghost predicate Explained(s0: seq<Cell>, s: seq<Cell>, size: Vec2s, seeds: seq<nat>)
    requires |s0| == |s| == size.x * size.y
  {
    forall j {:trigger Reached(s0, size, seeds, j)} :: 0 <= j < |s| && !s0[j].open && Covered(s[j]) ==> Reached(s0, size, seeds, j)
  }

  /**
   * The region a finished reveal opened: a cell unopened at the start is
   * opened exactly when a zero path from an unflagged seed leads to it.
   */
  ghost predicate RevealedRegion(s0: seq<Cell>, s: seq<Cell>, size: Vec2s, seeds: seq<nat>)
    requires |s0| == |s| == size.x * size.y
  {
    forall j :: 0 <= j < |s| && !s0[j].open ==> (s[j].open <==> Reached(s0, size, seeds, j))
  }

  /**
   * A finished reveal (nothing queued) that is closed, sound, and left every
   * seed opened or flagged opened exactly the seeded zero region and its
   * numbered border: completeness by FloodReachesPath, soundness by Explained.
   */
  lemma RevealRegion(s0: seq<Cell>, s: seq<Cell>, size: Vec2s, seeds: seq<nat>)
    requires |s0| == |s| == size.x * size.y
    requires RevealStep(s0, s) && ClosedExcept(s0, s, size, -1) && Explained(s0, s, size, seeds)
    requires Watched(s, seeds) && forall j :: 0 <= j < |s| ==> !s[j].frontline
    ensures RevealedRegion(s0, s, size, seeds)
  {
    forall j | 0 <= j < |s| && !s0[j].open
      ensures s[j].open <==> Reached(s0, size, seeds, j)
    {
      if s[j].open {
        assert Covered(s[j]);
      }
      if Reached(s0, size, seeds, j) {
        var path :| SeededPath(s0, size, seeds, path) && path[|path| - 1] == j;
        var m :| 0 <= m < |seeds| && seeds[m] == path[0];
        assert s[path[0]].open;
        FloodReachesPath(s0, s, size, path);
      }
    }
  }

  /**
   * The state of a reveal in progress over cells s with queue q, relative to
   * the cells s0 at its start: only reveal steps happened, queue and markers
   * agree, `mineOpened` tells whether a mine was opened, and every newly
   * opened zero cell but `skip` has its block opened or queued.
   */
  ghost predicate RevealState(s0: seq<Cell>, s: seq<Cell>, q: seq<nat>, size: Vec2s, mineOpened: bool, skip: int)
  {
    && |s0| == |s| == size.x * size.y
    && RevealStep(s0, s)
    && QueueMatches(s, q)
    && MineOpenedIs(s0, s, mineOpened)
    && ClosedExcept(s0, s, size, skip)
  }

  /** Every queued cell counted no mine at the start of the reveal. */
  ghost predicate QueueZero(s0: seq<Cell>, q: seq<nat>)
  {
    forall t :: 0 <= t < |q| ==> q[t] < |s0| && s0[q[t]].adjacentMines == 0
  }

  /** Queueing a zero cell keeps every queued cell a zero cell. */
  lemma QueueZeroSnoc(s0: seq<Cell>, q: seq<nat>, i: nat)
    requires QueueZero(s0, q) && i < |s0| && s0[i].adjacentMines == 0
    ensures QueueZero(s0, q + [i])
  {
  }

  /** Covered cells of s are covered in t. */
  ghost predicate CoverGrows(s: seq<Cell>, t: seq<Cell>)
    requires |s| == |t|
  {
    forall j :: 0 <= j < |s| ==> Covered(s[j]) ==> Covered(t[j])
  }

  /** Every watched cell is opened, queued or flagged. */
  ghost predicate Watched(s: seq<Cell>, watch: seq<nat>)
  {
    forall m :: 0 <= m < |watch| ==> watch[m] < |s| && (Covered(s[watch[m]]) || s[watch[m]].flagged)
  }

  /** Watched cells stay opened, queued or flagged while a reveal goes on. */
  lemma WatchedKept(s0: seq<Cell>, s: seq<Cell>, t: seq<Cell>, watch: seq<nat>)
    requires |s0| == |s| == |t|
    requires RevealStep(s0, s) && RevealStep(s0, t) && CoverGrows(s, t)
    requires Watched(s, watch)
    ensures Watched(t, watch)
  {
  }

  /** A loop over a block that covers its k-th cell and changes no other keeps its first k + 1 cells covered. */
  lemma CoveredPrefixStep(s: seq<Cell>, t: seq<Cell>, nbi: seq<nat>, k: nat)
    requires |s| == |t| && NoDup(nbi) && k < |nbi| && nbi[k] < |t| && Covered(t[nbi[k]])
    requires forall m :: 0 <= m < k ==> nbi[m] < |s| && Covered(s[nbi[m]])
    requires forall j :: 0 <= j < |s| && j != nbi[k] ==> t[j] == s[j]
    ensures forall m :: 0 <= m < k + 1 ==> Covered(t[nbi[m]])
  {
    forall m | 0 <= m < k
      ensures Covered(t[nbi[m]])
    {
      assert nbi[m] != nbi[k];
    }
  }

  lemma CoverGrowsTrans(s: seq<Cell>, t: seq<Cell>, u: seq<Cell>)
    requires |s| == |t| == |u| && CoverGrows(s, t) && CoverGrows(t, u)
    ensures CoverGrows(s, u)
  {
  }

  /** A reveal starts with nothing opened and nothing queued. */
  lemma RevealStart(s: seq<Cell>, size: Vec2s)
    requires |s| == size.x * size.y && AtRest(s)
    ensures RevealState(s, s, [], size, false, -1)
  {
  }

  /** Opening an unqueued cell that counts a mine (openCell) keeps a reveal's state. */
  lemma RevealOpenNumbered(s0: seq<Cell>, s: seq<Cell>, q: seq<nat>, size: Vec2s, mineOpened: bool, skip: int, i: nat)
    requires RevealState(s0, s, q, size, mineOpened, skip)
    requires i < |s| && !s[i].open && !s[i].frontline && s[i].adjacentMines != 0
    ensures var t := s[i := s[i].(open := true, flagged := false)];
            RevealState(s0, t, q, size, mineOpened || s[i].mined, skip) && CoverGrows(s, t)
  {
    var t := s[i := s[i].(open := true, flagged := false)];
    if s[i].mined {
      assert NewlyOpened(s0, t, i);
    }
    if mineOpened {
      var j :| 0 <= j < |s| && NewlyOpened(s0, s, j) && s[j].mined;
      assert NewlyOpened(s0, t, j);
    }
  }

  /** Queueing an unopened, unqueued cell (pushFrontline) keeps a reveal's state. */
  lemma RevealPush(s0: seq<Cell>, s: seq<Cell>, q: seq<nat>, size: Vec2s, mineOpened: bool, skip: int, i: nat)
    requires RevealState(s0, s, q, size, mineOpened, skip)
    requires i < |s| && !s[i].open && !s[i].frontline
    ensures var t := s[i := s[i].(frontline := true)];
            RevealState(s0, t, q + [i], size, mineOpened, skip) && CoverGrows(s, t) && Covered(t[i])
  {
    var t := s[i := s[i].(frontline := true)];
    DistinctAppend(q, i);
    if mineOpened {
      var j :| 0 <= j < |s| && NewlyOpened(s0, s, j) && s[j].mined;
      assert NewlyOpened(s0, t, j);
    }
  }

  /**
   * Popping the oldest queued cell and opening it (popFrontline, openCell):
   * its block is now the one left to close, unless it counts a mine.
   */
  lemma RevealPop(s0: seq<Cell>, s: seq<Cell>, q: seq<nat>, size: Vec2s, mineOpened: bool)
    requires RevealState(s0, s, q, size, mineOpened, -1) && q != []
    ensures var i := q[0];
            var t := s[i := s[i].(open := true, flagged := false, frontline := false)];
            && RevealState(s0, t, q[1..], size, mineOpened || s[i].mined, if s[i].adjacentMines == 0 then i else -1)
            && CoverGrows(s, t)
  {
    var i := q[0];
    var t := s[i := s[i].(open := true, flagged := false, frontline := false)];
    assert NewlyOpened(s0, t, i);
    if mineOpened {
      var j :| 0 <= j < |s| && NewlyOpened(s0, s, j) && s[j].mined;
      assert NewlyOpened(s0, t, j);
    }
    forall j | 0 <= j < |t|
      ensures t[j].frontline <==> j in q[1..]
    {
      assert j in q <==> j == i || j in q[1..];
    }
  }

  /** Opening a queued cell keeps the reveal sound; the cell was reached and unopened at the start. */
  lemma ExplainedOpen(s0: seq<Cell>, s: seq<Cell>, size: Vec2s, seeds: seq<nat>, i: nat)
    requires |s0| == |s| == size.x * size.y && RevealStep(s0, s) && Explained(s0, s, size, seeds)
    requires i < |s| && !s[i].open && s[i].frontline
    ensures Explained(s0, s[i := s[i].(open := true, flagged := false, frontline := false)], size, seeds)
    ensures Reached(s0, size, seeds, i) && !s0[i].open
  {
    assert Covered(s[i]);
  }

  /** Setting or clearing a reveal marker changes neither count. */
  lemma MarkKeepsCounted(s: seq<Cell>, i: nat, b: bool, openCount: nat, flagCount: nat)
    requires Counted(s, openCount, flagCount) && i < |s|
    ensures Counted(s[i := s[i].(frontline := b)], openCount, flagCount)
  {
    CountUpdate(s, i, s[i].(frontline := b), IsOpened);
    CountUpdate(s, i, s[i].(frontline := b), IsFlagged);
  }

  /** Once the block of `skip` is covered, the reveal is closed everywhere. */
  lemma RevealClose(s0: seq<Cell>, s: seq<Cell>, q: seq<nat>, size: Vec2s, mineOpened: bool, p: nat)
    requires RevealState(s0, s, q, size, mineOpened, p) && p < |s|
    requires forall m :: 0 <= m < |NeighbourIndices(size, p)| ==> Covered(s[NeighbourIndices(size, p)[m]])
    ensures RevealState(s0, s, q, size, mineOpened, -1)
  {
  }

  /** Whether `open(index)` acts: never on a flag, and on an opened cell only when its block's flags match its count. */
  predicate OpenProceeds(s0: seq<Cell>, size: Vec2s, index: nat)
    requires |s0| == size.x * size.y && index < |s0|
  {
    !s0[index].flagged && (!s0[index].open || FlaggedAround(s0, size, index) == s0[index].adjacentMines)
  }

  /** Where the reveal of `open(index)` starts: the block of an opened cell (a chord), else the cell itself. */
  function OpenSeeds(s0: seq<Cell>, size: Vec2s, index: nat): (seeds: seq<nat>)
    requires |s0| == size.x * size.y && index < |s0|
    ensures index in seeds
  {
    if s0[index].open then
      SelfNeighbour(size, index);
      NeighbourIndices(size, index)
    else [index]
  }

  /**
   * What `open(index)` does to cells s0: nothing when it does not proceed;
   * otherwise a reveal that leaves the target opened, nothing queued, and
   * opened exactly the zero region seeded by OpenSeeds and its border.
   */
  ghost predicate OpenResult(s0: seq<Cell>, s: seq<Cell>, size: Vec2s, index: nat)
    requires |s0| == size.x * size.y && index < |s0|
  {
    if OpenProceeds(s0, size, index) then
      && |s| == |s0| && RevealStep(s0, s) && s[index].open
      && (forall j :: 0 <= j < |s| ==> !s[j].frontline)
      && RevealedRegion(s0, s, size, OpenSeeds(s0, size, index))
    else s == s0
  }

  /** OpenResult leaves no choice: the cells after `open(index)` are a function of the cells before. */
  lemma OpenResultUnique(s0: seq<Cell>, s: seq<Cell>, t: seq<Cell>, size: Vec2s, index: nat)
    requires |s0| == size.x * size.y && index < |s0|
    requires OpenResult(s0, s, size, index) && OpenResult(s0, t, size, index)
    ensures s == t
  {
    if OpenProceeds(s0, size, index) {
      forall j | 0 <= j < |s|
        ensures s[j] == t[j]
      {
        if !s0[j].open {
          assert s[j].open == t[j].open;
        }
      }
    }
  }

  /**
   * What `makeSafe(index)` does, n being its draw: the cell ends mine-free,
   * nothing but mines and counts changes, a mine-free cell leaves the board
   * as it was, and a mine moves to the n-th unmined cell.
   */
  ghost predicate MadeSafe(s0: seq<Cell>, s: seq<Cell>, index: nat, n: nat)
  {
    && index < |s0| && StatusKept(s0, s) && !s[index].mined
    && (!s0[index].mined ==> s == s0)
    && (s0[index].mined ==>
          && 1 <= n <= Count(s0, IsUnmined)
          && forall j :: 0 <= j < |s| ==> s[j].mined == (j == NthUnmined(s0, n) || (j != index && s0[j].mined)))
  }

  // ---------------------------------------------------------------------------
  // The board
  // ---------------------------------------------------------------------------

  class Board {
    var size: Vec2s
    var mineCount: nat
    var flagCount: nat
    var openCount: nat
    var cells: array<Cell>
    /** Circular buffer of the reveal queue; begFrontline == endFrontline means empty. */
    var frontline: array<nat>
    var begFrontline: nat
    var endFrontline: nat

    /** The queued indices, oldest first. */
    ghost var queued: seq<nat>

    /**
     * The circular buffer holds `queued`: its k-th element sits k slots after
     * begFrontline (wrapping round), endFrontline is the slot after the last
     * one, and at least one slot is free.
     */
    ghost predicate QueueShape()
      reads this`frontline, this`begFrontline, this`endFrontline, this`queued, frontline
    {
      if frontline.Length == 0 then begFrontline == 0 && endFrontline == 0 && queued == []
      else
        && begFrontline < frontline.Length && |queued| < frontline.Length
        && endFrontline == RingSlot(begFrontline, |queued|, frontline.Length)
        && forall k {:trigger RingSlot(begFrontline, k, frontline.Length)} :: 0 <= k < |queued| ==>
             queued[k] == frontline[RingSlot(begFrontline, k, frontline.Length)]
    }

    ghost predicate Valid()
      reads this, cells, frontline
    {
      && (size == Vec2s(0, 0) || (0 < size.x && 0 < size.y && cells.Length < MaxVectorSize))
      && cells.Length == size.x * size.y
      && QueueShape() && begFrontline == endFrontline
      && (cells.Length > 0 ==> frontline.Length >= 1)
      && Counted(cells[..], openCount, flagCount)
      && AdjacencyOk(cells[..], size)
      && AtRest(cells[..])
    }

    /**
     * `isWon()`: with exact counters and no mine opened, it holds exactly
     * when every unmined cell has been opened.
     */
    function IsWon(): (won: bool)
      reads this, cells
      ensures Counted(cells[..], openCount, flagCount) && mineCount == Count(cells[..], IsMined)
              && (forall j :: 0 <= j < cells.Length && cells[j].open ==> !cells[j].mined)
              ==> (won <==> forall j :: 0 <= j < cells.Length && !cells[j].mined ==> cells[j].open)
    {
      MinedUnminedSplit(cells[..]);
      if forall j :: 0 <= j < cells.Length && cells[j].open ==> !cells[j].mined then
        OpenedUnminedCount(cells[..]);
        openCount == cells.Length - mineCount
      else
        openCount == cells.Length - mineCount
    }

    /** The default board: size (0, 0), no cells, empty queue. */
    constructor ()
      ensures Valid() && size == Vec2s(0, 0) && mineCount == 0 && cells.Length == 0
      ensures fresh(cells) && fresh(frontline)
    {
      size := Vec2s(0, 0);
      mineCount, flagCount, openCount := 0, 0, 0;
      cells := new Cell[0];
      frontline := new nat[0];
      begFrontline, endFrontline := 0, 0;
      queued := [];
      new;
      CountNone(cells[..], IsOpened);
      CountNone(cells[..], IsFlagged);
    }

    /** Beginner preset: 9 x 9 with 10 mines. */
    constructor EasyBoard()
      ensures Valid() && size == Vec2s(9, 9) && mineCount == 10
      ensures forall j :: 0 <= j < cells.Length ==> cells[j] == BlankCell
      ensures fresh(cells) && fresh(frontline)
    {
      size := Vec2s(0, 0);
      mineCount, flagCount, openCount := 0, 0, 0;
      cells := new Cell[0];
      frontline := new nat[0];
      begFrontline, endFrontline := 0, 0;
      queued := [];
      new;
      Resize(Vec2s(9, 9));
      SetMineCount(10);
    }

    /** Intermediate preset: 16 x 16 with 40 mines. */
    constructor MediumBoard()
      ensures Valid() && size == Vec2s(16, 16) && mineCount == 40
      ensures forall j :: 0 <= j < cells.Length ==> cells[j] == BlankCell
      ensures fresh(cells) && fresh(frontline)
    {
      size := Vec2s(0, 0);
      mineCount, flagCount, openCount := 0, 0, 0;
      cells := new Cell[0];
      frontline := new nat[0];
      begFrontline, endFrontline := 0, 0;
      queued := [];
      new;
      Resize(Vec2s(16, 16));
      SetMineCount(40);
    }

    /** Expert preset: 30 x 16 with 99 mines. */
    constructor HardBoard()
      ensures Valid() && size == Vec2s(30, 16) && mineCount == 99
      ensures forall j :: 0 <= j < cells.Length ==> cells[j] == BlankCell
      ensures fresh(cells) && fresh(frontline)
    {
      size := Vec2s(0, 0);
      mineCount, flagCount, openCount := 0, 0, 0;
      cells := new Cell[0];
      frontline := new nat[0];
      begFrontline, endFrontline := 0, 0;
      queued := [];
      new;
      Resize(Vec2s(30, 16));
      SetMineCount(99);
    }

    /** `setMineCount`; its bound (at least one mine-free cell) is assumed, see README. */
    method SetMineCount(count: nat)
      requires count < cells.Length
      modifies this`mineCount
      ensures mineCount == count
    {
      mineCount := count;
    }

    method Resize(newSize: Vec2s)
      requires IsSizeValid(newSize)
      modifies this
      ensures Valid() && size == newSize && mineCount == old(mineCount)
      ensures fresh(cells) && fresh(frontline)
      ensures forall j :: 0 <= j < cells.Length ==> cells[j] == BlankCell
    {
      size := newSize;
      Clear();
    }

    /** Resets every cell and both counters, keeping the size and the target mine count. */
    method Clear()
      requires IsSizeValid(size)
      modifies this
      ensures Valid() && size == old(size) && mineCount == old(mineCount)
      ensures fresh(cells) && fresh(frontline)
      ensures forall j :: 0 <= j < cells.Length ==> cells[j] == BlankCell
    {
      flagCount, openCount := 0, 0;
      var blank := new Cell[size.x * size.y](_ => BlankCell);
      BlankBoard(blank[..], size);
      cells := blank;
      SetupFrontline();
    }

    method SetupFrontline()
      requires IsSizeValid(size)
      modifies this`frontline, this`begFrontline, this`endFrontline, this`queued
      ensures fresh(frontline) && frontline.Length == FrontlineCapacity(size)
      ensures begFrontline == endFrontline == 0 && queued == []
    {
      frontline := new nat[FrontlineCapacity(size)];
      begFrontline, endFrontline := 0, 0;
      queued := [];
    }

    /**
     * `mineCell(index)`: the cell must not be mined yet; it becomes mined and
     * every cell of its 3x3 block, itself included, counts one more mine.
     */
    method MineCell(index: nat)
      requires AdjacencyOk(cells[..], size) && index < cells.Length && !cells[index].mined
      modifies cells
      ensures MinedAt(old(cells[..]), cells[..], size, index)
    {
      ghost var s0 := cells[..];
      ghost var nbi := NeighbourIndices(size, index);
      NeighbourIndicesNoDup(size, index);
      BlockBound(s0, size, index);
      cells[index] := cells[index].(mined := true);
      var nb := NeighboursOf(size, ToCoordinates(size, index));
      for k := 0 to |nb|
        invariant forall j :: 0 <= j < cells.Length ==>
          BlockShifted(s0[j], cells[j], j == index, true, if j in nbi[..k] then 1 else 0)
      {
        var idx := ToIndex(size, nb[k]);
        assert idx == nbi[k];
        assert nbi[..k + 1] == nbi[..k] + [idx];
        cells[idx] := cells[idx].(adjacentMines := cells[idx].adjacentMines + 1);
      }
      assert nbi[..|nb|] == nbi;
      MineByBlock(s0, cells[..], size, index);
      MineFlags(s0, size, index);
      MinePreservesAdjacency(s0, size, index);
      MineCount(s0, size, index);
    }

    /**
     * `placeMines()` on a board without mines: for i from cells - mineCount up
     * to cells - 1, draw r in [0, i] and mine r, or i if r is already mined.
     * `draws` holds the successive random draws. The mined cells are exactly
     * Floyd's sample of the draws, so mineCount distinct cells get a mine.
     */
    method PlaceMines(draws: seq<nat>)
      requires Valid()
      requires mineCount <= cells.Length && NoMines(cells[..])
      requires |draws| == mineCount && FloydDraws(cells.Length - mineCount, draws)
      modifies cells
      ensures Valid() && StatusKept(old(cells[..]), cells[..])
      ensures MinesAre(cells[..], FloydSample(cells.Length - mineCount, draws, |draws|))
      ensures Count(cells[..], IsMined) == mineCount
    {
      ghost var s0 := cells[..];
      CountNone(s0, IsMined);
      var start := cells.Length - mineCount;
      var i := start;
      ghost var k := 0;
      while i < cells.Length
        invariant start <= i <= cells.Length && i == start + k
        invariant AdjacencyOk(cells[..], size) && StatusKept(s0, cells[..])
        invariant MinesAre(cells[..], FloydSample(start, draws, k))
        invariant Count(cells[..], IsMined) == k
      {
        PlaceOne(i, draws[i - start], s0, start, draws, k);
        i, k := i + 1, k + 1;
      }
      assert k == |draws|;
      StatusKeptValid(s0, cells[..], openCount, flagCount);
    }

    /** One pass of the `placeMines` loop: with draw r, mine r, or i when r is already mined. */
    method PlaceOne(i: nat, r: nat, ghost s0: seq<Cell>, ghost start: nat, ghost draws: seq<nat>, ghost k: nat)
      requires AdjacencyOk(cells[..], size) && StatusKept(s0, cells[..]) && i < cells.Length
      requires k < |draws| && FloydDraws(start, draws) && i == start + k && r == draws[k]
      requires MinesAre(cells[..], FloydSample(start, draws, k)) && Count(cells[..], IsMined) == k
      modifies cells
      ensures AdjacencyOk(cells[..], size) && StatusKept(s0, cells[..])
      ensures MinesAre(cells[..], FloydSample(start, draws, k + 1)) && Count(cells[..], IsMined) == k + 1
    {
      ghost var prev := cells[..];
      var index := if cells[r].mined then i else r;
      MineCell(index);
      FloydStep(prev, cells[..], start, draws, k, index);
    }

    /**
     * The first half of `makeSafe`: count n down over the unmined cells in
     * index order and mine the one where it reaches zero. Past that cell the
     * unsigned counter wraps around and never reaches zero again.
     */
    method MineNthUnmined(n: SizeT)
      requires AdjacencyOk(cells[..], size) && 1 <= n <= Count(cells[..], IsUnmined)
      requires cells.Length < SizeLimit
      modifies cells
      ensures MinedAt(old(cells[..]), cells[..], size, NthUnmined(old(cells[..]), n))
    {
      ghost var s0 := cells[..];
      ghost var p := NthUnmined(s0, n);
      var left := n;
      var i := 0;
      while i < cells.Length
        invariant 0 <= i <= cells.Length == |s0| && CountdownAt(s0, cells[..], size, n, p, i, left)
      {
        left := CountdownStep(s0, n, p, i, left);
        i := i + 1;
      }
      assert s0[..|s0|] == s0;
    }

    /**
     * One pass of that loop at cell i: an unmined cell decrements the size_t
     * counter, and the cell where it reaches zero gets the mine.
     */
    method CountdownStep(ghost s0: seq<Cell>, ghost n: nat, ghost p: nat, i: nat, left: SizeT) returns (left': SizeT)
      requires i < cells.Length == |s0| < SizeLimit && CountdownAt(s0, cells[..], size, n, p, i, left)
      requires AdjacencyOk(s0, size) && 1 <= n <= Count(s0, IsUnmined) && p == NthUnmined(s0, n)
      modifies cells
      ensures CountdownAt(s0, cells[..], size, n, p, i + 1, left')
    {
      PrefixCountStep(s0, i);
      PrefixCountGrows(s0, i + 1, |s0|);
      assert s0[..|s0|] == s0;
      if i < p {
        PrefixCountGrows(s0, i + 1, p);
      }
      left' := left;
      if !cells[i].mined {
        left' := Wrap(left as int - 1);
        if left' == 0 {
          MineCell(i);
        }
      }
    }

    /** The second half of `makeSafe`: the cell loses its mine and its whole block counts one fewer. */
    method UnmineCell(index: nat)
      requires AdjacencyOk(cells[..], size) && index < cells.Length && cells[index].mined
      modifies cells
      ensures UnminedAt(old(cells[..]), cells[..], size, index)
    {
      ghost var s0 := cells[..];
      ghost var nbi := NeighbourIndices(size, index);
      NeighbourIndicesNoDup(size, index);
      BlockFloor(s0, size, index);
      cells[index] := cells[index].(mined := false);
      var nb := NeighboursOf(size, ToCoordinates(size, index));
      for k := 0 to |nb|
        invariant forall j :: 0 <= j < cells.Length ==>
          BlockShifted(s0[j], cells[j], j == index, false, if j in nbi[..k] then -1 else 0)
      {
        var idx := ToIndex(size, nb[k]);
        assert idx == nbi[k];
        assert nbi[..k + 1] == nbi[..k] + [idx];
        cells[idx] := cells[idx].(adjacentMines := cells[idx].adjacentMines - 1);
      }
      assert nbi[..|nb|] == nbi;
      UnmineByBlock(s0, cells[..], size, index);
      UnmineFlags(s0, size, index);
      UnminePreservesAdjacency(s0, size, index);
      UnmineCount(s0, size, index);
    }

    /**
     * `makeSafe(index)`: if the cell is mined, its mine moves to the n-th
     * unmined cell, n drawn in [1, cells - mineCount]; a cell without a mine
     * is left alone. The number of mines never changes.
     */
    method MakeSafe(index: nat, n: SizeT)
      requires Valid() && index < cells.Length
      requires cells[index].mined ==>
                 Count(cells[..], IsMined) == mineCount < cells.Length && 1 <= n <= cells.Length - mineCount
      modifies cells
      ensures Valid() && MadeSafe(old(cells[..]), cells[..], index, n)
      ensures Count(cells[..], IsMined) == old(Count(cells[..], IsMined))
    {
      if !cells[index].mined {
        return;
      }
      ghost var s0 := cells[..];
      MinedUnminedSplit(s0);
      MineNthUnmined(n);
      UnmineCell(index);
      StatusKeptValid(s0, cells[..], openCount, flagCount);
    }

    /** `flag(index)`: no effect on an opened cell; otherwise the flag is inverted. */
    method Flag(index: nat)
      requires Valid() && index < cells.Length
      modifies this`flagCount, cells
      ensures Valid()
      ensures cells[..] == old(cells[..])[index := FlagCell(old(cells[index]))]
      ensures flagCount == if old(cells[index].open) then old(flagCount)
                           else if old(cells[index].flagged) then old(flagCount) - 1
                           else old(flagCount) + 1
    {
      ghost var s0 := cells[..];
      FlagTwice(s0, index);
      if !cells[index].open {
        cells[index] := cells[index].(flagged := !cells[index].flagged);
        flagCount := if cells[index].flagged then flagCount + 1 else flagCount - 1;
      }
      assert cells[..] == s0[index := FlagCell(s0[index])];
      CountUpdate(s0, index, FlagCell(s0[index]), IsOpened);
      AdjacencyKept(s0, cells[..], size);
    }

    /** `openCell(cell)`: the cell must not be open yet; it opens, loses its flag, and reports its mine. */
    method OpenCell(index: nat) returns (mined: bool)
      requires index < cells.Length && !cells[index].open
      requires Counted(cells[..], openCount, flagCount)
      modifies this`flagCount, this`openCount, cells
      ensures cells[..] == old(cells[..])[index := old(cells[index]).(open := true, flagged := false)]
      ensures Counted(cells[..], openCount, flagCount) && openCount == old(openCount) + 1
      ensures mined == cells[index].mined
    {
      ghost var s0 := cells[..];
      var c := cells[index].(open := true, flagged := false);
      CountUpdate(s0, index, c, IsOpened);
      CountUpdate(s0, index, c, IsFlagged);
      if cells[index].flagged {
        flagCount := flagCount - 1;
      }
      cells[index] := c;
      openCount := openCount + 1;
      mined := c.mined;
    }

    /** `isFrontlineEmpty()`. */
    function IsFrontlineEmpty(): (empty: bool)
      reads this`frontline, this`begFrontline, this`endFrontline, this`queued, frontline
      requires QueueShape()
      ensures empty <==> queued == []
    {
      begFrontline == endFrontline
    }

    /**
     * `pushFrontline(index)`: marks the cell and appends its index; when the
     * buffer becomes full it grows (GrowFrontline).
     */
    method PushFrontline(index: nat)
      requires QueueShape() && frontline.Length >= 1
      requires index < cells.Length && !cells[index].frontline
      modifies this`frontline, this`begFrontline, this`endFrontline, this`queued, frontline, cells
      ensures QueueShape() && frontline.Length >= 1
      ensures frontline == old(frontline) || fresh(frontline)
      ensures queued == old(queued) + [index]
      ensures cells[..] == old(cells[..])[index := old(cells[index]).(frontline := true)]
    {
      ghost var q0 := queued;
      ghost var b, len := begFrontline, frontline.Length;
      cells[index] := cells[index].(frontline := true);
      frontline[endFrontline] := index;
      NextSlot(endFrontline, frontline.Length);
      endFrontline := (endFrontline + 1) % frontline.Length;
      queued := q0 + [index];
      forall k | 0 <= k < |queued|
        ensures queued[k] == frontline[RingSlot(b, k, len)]
      {
        if k < |q0| {
          assert RingSlot(b, k, len) != RingSlot(b, |q0|, len);
        }
      }
      if begFrontline == endFrontline {
        // the queue now fills the whole buffer
        GrowFrontline();
      }
    }

    /**
     * The growing step of `pushFrontline`, taken when a push has filled every
     * slot (begFrontline == endFrontline): the buffer doubles, keeping its
     * slots, and the part below begFrontline or the part from it on is moved
     * up by the old size, so the queue reads in order again.
     */
    method GrowFrontline()
      requires 1 <= frontline.Length && begFrontline == endFrontline < frontline.Length
      requires |queued| == frontline.Length
      requires forall k :: 0 <= k < |queued| ==> queued[k] == frontline[RingSlot(begFrontline, k, frontline.Length)]
      modifies this`frontline, this`begFrontline, this`endFrontline
      ensures fresh(frontline) && frontline.Length == 2 * old(frontline.Length)
      ensures QueueShape()
    {
      var fSize := frontline.Length;
      ghost var buf := frontline[..];
      ghost var b := begFrontline;
      var grown := new nat[fSize * 2];
      forall i | 0 <= i < fSize {
        grown[i] := frontline[i];
      }
      frontline := grown;
      ghost var g := grown[..];
      var beg, end;
      if fSize - begFrontline < begFrontline {
        endFrontline := endFrontline + fSize;
        beg, end := 0, begFrontline;
      } else {
        begFrontline := begFrontline + fSize;
        beg, end := endFrontline, fSize;
      }
      ghost var nb, ne := begFrontline, endFrontline;
      for i := beg to end
        invariant frontline == grown && begFrontline == nb && endFrontline == ne
        invariant forall t {:trigger grown[t]} :: 0 <= t < 2 * fSize ==>
                    grown[t] == if beg + fSize <= t < i + fSize then g[t - fSize] else g[t]
      {
        frontline[i + fSize] := frontline[i];
      }
      forall k | 0 <= k < |queued|
        ensures queued[k] == grown[RingSlot(begFrontline, k, 2 * fSize)]
      {
        assert queued[k] == buf[RingSlot(b, k, fSize)];
      }
    }

    /** `popFrontline()`: removes the oldest index and clears its cell's marker. */
    method PopFrontline() returns (index: nat)
      requires QueueShape() && queued != []
      requires queued[0] < cells.Length
      modifies this`begFrontline, this`queued, cells
      ensures QueueShape()
      ensures index == old(queued)[0] && queued == old(queued)[1..]
      ensures cells[..] == old(cells[..])[index := old(cells[index]).(frontline := false)]
    {
      ghost var q0 := queued;
      ghost var b, len := begFrontline, frontline.Length;
      assert RingSlot(b, 0, len) == b;
      index := frontline[begFrontline];
      NextSlot(begFrontline, frontline.Length);
      begFrontline := (begFrontline + 1) % frontline.Length;
      queued := q0[1..];
      forall k | 0 <= k < |queued|
        ensures queued[k] == frontline[RingSlot(begFrontline, k, len)]
      {
        assert RingSlot(begFrontline, k, len) == RingSlot(b, k + 1, len);
      }
      assert RingSlot(begFrontline, |queued|, len) == RingSlot(b, |q0|, len);
      cells[index] := cells[index].(frontline := false);
    }

    /** A reveal in progress from cells s0, with the counters kept (see RevealState). */
    ghost predicate Revealing(s0: seq<Cell>, mineOpened: bool, skip: int)
      reads this, cells, frontline
    {
      && |s0| == cells.Length == size.x * size.y
      && QueueShape() && frontline.Length >= 1
      && Counted(cells[..], openCount, flagCount)
      && RevealState(s0, cells[..], queued, size, mineOpened, skip)
    }

    /** The first loop of `open`'s chord branch: the number of flagged cells in the block. */
    method CountFlaggedAround(index: nat) returns (count: nat)
      requires index < cells.Length && cells.Length == size.x * size.y
      ensures count == FlaggedAround(cells[..], size, index)
    {
      ghost var nbi := NeighbourIndices(size, index);
      var nb := NeighboursOf(size, ToCoordinates(size, index));
      count := 0;
      for k := 0 to |nb|
        invariant count == CountAt(cells[..], nbi[..k], IsFlagged)
      {
        var idx := ToIndex(size, nb[k]);
        assert idx == nbi[k];
        assert nbi[..k + 1][..k] == nbi[..k];
        if cells[idx].flagged {
          count := count + 1;
        }
      }
      assert nbi[..|nb|] == nbi;
    }

    /** `openCell` during a reveal, on an unqueued cell that counts a mine. */
    method RevealNumbered(ghost s0: seq<Cell>, index: nat, ghost mineOpened: bool, ghost skip: int, ghost seeds: seq<nat>)
      returns (mined: bool)
      requires Revealing(s0, mineOpened, skip) && Explained(s0, cells[..], size, seeds)
      requires index < cells.Length && !cells[index].open && !cells[index].frontline && cells[index].adjacentMines != 0
      requires Reached(s0, size, seeds, index)
      modifies this`flagCount, this`openCount, cells
      ensures Revealing(s0, mineOpened || mined, skip) && mined == old(cells[index].mined)
      ensures Explained(s0, cells[..], size, seeds)
      ensures openCount == old(openCount) + 1 && CoverGrows(old(cells[..]), cells[..]) && cells[index].open
      ensures forall j :: 0 <= j < cells.Length && j != index ==> cells[j] == old(cells[j])
    {
      RevealOpenNumbered(s0, cells[..], queued, size, mineOpened, skip, index);
      mined := OpenCell(index);
    }

    /** `pushFrontline` during a reveal, on an unopened, unqueued cell. */
    method RevealQueue(ghost s0: seq<Cell>, index: nat, ghost mineOpened: bool, ghost skip: int, ghost seeds: seq<nat>)
      requires Revealing(s0, mineOpened, skip) && Explained(s0, cells[..], size, seeds)
      requires index < cells.Length && !cells[index].open && !cells[index].frontline
      requires Reached(s0, size, seeds, index)
      modifies this`frontline, this`begFrontline, this`endFrontline, this`queued, frontline, cells
      ensures Revealing(s0, mineOpened, skip) && queued == old(queued) + [index]
      ensures Explained(s0, cells[..], size, seeds)
      ensures frontline == old(frontline) || fresh(frontline)
      ensures CoverGrows(old(cells[..]), cells[..]) && cells[index].frontline
      ensures forall j :: 0 <= j < cells.Length && j != index ==> cells[j] == old(cells[j])
    {
      RevealPush(s0, cells[..], queued, size, mineOpened, skip, index);
      MarkKeepsCounted(cells[..], index, true, openCount, flagCount);
      PushFrontline(index);
    }

    /** `popFrontline` then `openCell` during a reveal: the oldest queued cell is opened. */
    method RevealNext(ghost s0: seq<Cell>, ghost mineOpened: bool, ghost seeds: seq<nat>) returns (index: nat, mined: bool)
      requires Revealing(s0, mineOpened, -1) && queued != [] && Watched(cells[..], seeds)
      requires Explained(s0, cells[..], size, seeds)
      modifies this`begFrontline, this`queued, this`flagCount, this`openCount, cells
      ensures index == old(queued[0]) && index < cells.Length && mined == old(cells[index].mined)
      ensures Revealing(s0, mineOpened || mined, if cells[index].adjacentMines == 0 then index else -1)
      ensures queued == old(queued[1..])
      ensures cells[..] == old(cells[..])[index := old(cells[index]).(open := true, flagged := false, frontline := false)]
      ensures openCount == old(openCount) + 1 && Watched(cells[..], seeds)
      ensures Explained(s0, cells[..], size, seeds) && Reached(s0, size, seeds, index) && !s0[index].open
    {
      ghost var s, q := cells[..], queued;
      ghost var t := s[q[0] := s[q[0]].(open := true, flagged := false, frontline := false)];
      RevealPop(s0, s, q, size, mineOpened);
      ExplainedOpen(s0, s, size, seeds, q[0]);
      MarkKeepsCounted(s, q[0], false, openCount, flagCount);
      index := PopFrontline();
      mined := OpenCell(index);
      assert cells[..] == t;
      WatchedKept(s0, s, cells[..], seeds);
    }

    /**
     * The body of the second loop of `open`'s chord branch, for the block
     * cell idx: if it is unopened and unflagged, it is opened when it counts
     * a mine and queued otherwise; no other cell changes.
     */
    method ChordReveal(ghost s0: seq<Cell>, idx: nat, mineOpened: bool, ghost seeds: seq<nat>) returns (mineOpened': bool)
      requires Revealing(s0, mineOpened, -1) && QueueZero(s0, queued) && Explained(s0, cells[..], size, seeds)
      requires idx < cells.Length && idx in seeds && !cells[idx].frontline
      modifies this`openCount, this`flagCount, this`frontline, this`begFrontline, this`endFrontline, this`queued, cells, frontline
      ensures Revealing(s0, mineOpened', -1) && QueueZero(s0, queued) && Explained(s0, cells[..], size, seeds)
      ensures frontline == old(frontline) || fresh(frontline)
      ensures Covered(cells[idx]) || cells[idx].flagged
      ensures forall j :: 0 <= j < cells.Length && j != idx ==> cells[j] == old(cells[j])
    {
      mineOpened' := mineOpened;
      if !cells[idx].open && !cells[idx].flagged {
        SeedReached(s0, size, seeds, idx);
        if cells[idx].adjacentMines != 0 {
          var mined := RevealNumbered(s0, idx, mineOpened, -1, seeds);
          mineOpened' := mineOpened || mined;
        } else {
          ghost var q := queued;
          RevealQueue(s0, idx, mineOpened, -1, seeds);
          QueueZeroSnoc(s0, q, idx);
        }
      }
    }

    /** One pass of that loop, at the k-th block cell idx: the first k + 1 block cells are now dealt with. */
    method ChordStep(ghost s0: seq<Cell>, idx: nat, mineOpened: bool, ghost nbi: seq<nat>, ghost k: nat)
      returns (mineOpened': bool)
      requires Revealing(s0, mineOpened, -1) && QueueZero(s0, queued) && Explained(s0, cells[..], size, nbi)
      requires NoDup(nbi) && (forall m :: 0 <= m < |nbi| ==> nbi[m] < cells.Length) && k < |nbi| && idx == nbi[k]
      requires forall m :: k <= m < |nbi| ==> !cells[nbi[m]].frontline
      requires forall m :: 0 <= m < k ==> Covered(cells[nbi[m]]) || cells[nbi[m]].flagged
      modifies this`openCount, this`flagCount, this`frontline, this`begFrontline, this`endFrontline, this`queued, cells, frontline
      ensures Revealing(s0, mineOpened', -1) && QueueZero(s0, queued) && Explained(s0, cells[..], size, nbi)
      ensures frontline == old(frontline) || fresh(frontline)
      ensures forall m :: k + 1 <= m < |nbi| ==> !cells[nbi[m]].frontline
      ensures forall m :: 0 <= m < k + 1 ==> Covered(cells[nbi[m]]) || cells[nbi[m]].flagged
    {
      ghost var s := cells[..];
      mineOpened' := ChordReveal(s0, idx, mineOpened, nbi);
      forall m | 0 <= m < |nbi| && m != k
        ensures cells[nbi[m]] == s[nbi[m]]
      {
        assert nbi[m] != idx;
      }
    }

    /**
     * The second loop of `open`'s chord branch: every unopened, unflagged
     * cell of the block is opened if it counts a mine and queued otherwise,
     * each one a seed of the reveal.
     */
    method ChordNeighbours(index: nat) returns (mineOpened: bool)
      requires Valid() && index < cells.Length
      modifies this`openCount, this`flagCount, this`frontline, this`begFrontline, this`endFrontline, this`queued, cells, frontline
      ensures Revealing(old(cells[..]), mineOpened, -1) && QueueZero(old(cells[..]), queued)
      ensures frontline == old(frontline) || fresh(frontline)
      ensures Watched(cells[..], NeighbourIndices(size, index))
      ensures Explained(old(cells[..]), cells[..], size, NeighbourIndices(size, index))
    {
      ghost var s0 := cells[..];
      RevealStart(s0, size);
      ghost var nbi := NeighbourIndices(size, index);
      NeighbourIndicesNoDup(size, index);
      var nb := NeighboursOf(size, ToCoordinates(size, index));
      mineOpened := false;
      for k := 0 to |nb|
        invariant Revealing(s0, mineOpened, -1) && QueueZero(s0, queued) && Explained(s0, cells[..], size, nbi)
        invariant frontline == old(frontline) || fresh(frontline)
        invariant forall m :: k <= m < |nbi| ==> !cells[nbi[m]].frontline
        invariant forall m :: 0 <= m < k ==> Covered(cells[nbi[m]]) || cells[nbi[m]].flagged
      {
        var idx := ToIndex(size, nb[k]);
        assert idx == nbi[k];
        mineOpened := ChordStep(s0, idx, mineOpened, nbi, k);
      }
      assert nbi[..|nb|] == nbi;
    }

    /**
     * The body of the inner loop of the flood fill, for the block cell idx of
     * an opened cell p that counts no mine: an unopened idx is opened if it
     * counts a mine (it cannot be one, since p counts none), and queued
     * otherwise unless it already is; no other cell changes.
     */
    method ExpandNeighbour(ghost s0: seq<Cell>, p: nat, idx: nat, ghost mineOpened: bool, ghost seeds: seq<nat>)
      requires Revealing(s0, mineOpened, p) && AdjacencyOk(s0, size) && QueueZero(s0, queued)
      requires Explained(s0, cells[..], size, seeds)
      requires p < |s0| && s0[p].adjacentMines == 0 && !s0[p].open && Reached(s0, size, seeds, p)
      requires idx < |s0| && idx in NeighbourIndices(size, p)
      modifies this`openCount, this`flagCount, this`frontline, this`begFrontline, this`endFrontline, this`queued, cells, frontline
      ensures Revealing(s0, mineOpened, p) && QueueZero(s0, queued) && Explained(s0, cells[..], size, seeds)
      ensures frontline == old(frontline) || fresh(frontline)
      ensures openCount >= old(openCount) && CoverGrows(old(cells[..]), cells[..]) && Covered(cells[idx])
      ensures forall j :: 0 <= j < cells.Length && j != idx ==> cells[j] == old(cells[j])
    {
      ReachedStep(s0, size, seeds, p, idx);
      if !cells[idx].open {
        if cells[idx].adjacentMines != 0 {
          assert !s0[idx].mined by {
            ZeroCountNoMine(s0, size, p, idx);
          }
          var shouldNotHaveOpenedAMine := RevealNumbered(s0, idx, mineOpened, p, seeds);
          assert !shouldNotHaveOpenedAMine;
        } else if !cells[idx].frontline {
          ghost var q := queued;
          RevealQueue(s0, idx, mineOpened, p, seeds);
          QueueZeroSnoc(s0, q, idx);
        }
      }
    }

    /** One pass of that loop, at the k-th block cell idx: the first k + 1 block cells are now covered. */
    method ExpandCell(ghost s0: seq<Cell>, p: nat, idx: nat, ghost mineOpened: bool,
                      ghost c1: seq<Cell>, ghost o1: nat, ghost nbi: seq<nat>, ghost k: nat, ghost seeds: seq<nat>)
      requires Revealing(s0, mineOpened, p) && AdjacencyOk(s0, size) && QueueZero(s0, queued)
      requires Explained(s0, cells[..], size, seeds)
      requires p < |s0| && s0[p].adjacentMines == 0 && nbi == NeighbourIndices(size, p) && NoDup(nbi)
      requires !s0[p].open && Reached(s0, size, seeds, p)
      requires k < |nbi| && idx == nbi[k]
      requires |c1| == cells.Length && openCount >= o1 && CoverGrows(c1, cells[..])
      requires forall m :: 0 <= m < k ==> Covered(cells[nbi[m]])
      modifies this`openCount, this`flagCount, this`frontline, this`begFrontline, this`endFrontline, this`queued, cells, frontline
      ensures Revealing(s0, mineOpened, p) && QueueZero(s0, queued) && Explained(s0, cells[..], size, seeds)
      ensures frontline == old(frontline) || fresh(frontline)
      ensures openCount >= o1 && CoverGrows(c1, cells[..])
      ensures forall m :: 0 <= m < k + 1 ==> Covered(cells[nbi[m]])
    {
      ghost var s := cells[..];
      ExpandNeighbour(s0, p, idx, mineOpened, seeds);
      CoverGrowsTrans(c1, s, cells[..]);
      CoveredPrefixStep(s, cells[..], nbi, k);
    }

    /**
     * The inner loop of the flood fill, for an opened cell p that counts no
     * mine: every cell of its block ends up opened or queued, each one
     * reached by a zero path through p.
     */
    method ExpandFrom(ghost s0: seq<Cell>, p: nat, ghost mineOpened: bool, ghost seeds: seq<nat>)
      requires Revealing(s0, mineOpened, p) && AdjacencyOk(s0, size) && QueueZero(s0, queued)
      requires Explained(s0, cells[..], size, seeds)
      requires p < |s0| && s0[p].adjacentMines == 0 && !s0[p].open && Reached(s0, size, seeds, p)
      modifies this`openCount, this`flagCount, this`frontline, this`begFrontline, this`endFrontline, this`queued, cells, frontline
      ensures Revealing(s0, mineOpened, -1) && QueueZero(s0, queued) && Explained(s0, cells[..], size, seeds)
      ensures frontline == old(frontline) || fresh(frontline)
      ensures openCount >= old(openCount) && CoverGrows(old(cells[..]), cells[..])
    {
      ghost var c1 := cells[..];
      ghost var nbi := NeighbourIndices(size, p);
      NeighbourIndicesNoDup(size, p);
      var nb := NeighboursOf(size, ToCoordinates(size, p));
      for k := 0 to |nb|
        invariant Revealing(s0, mineOpened, p) && QueueZero(s0, queued) && Explained(s0, cells[..], size, seeds)
        invariant frontline == old(frontline) || fresh(frontline)
        invariant openCount >= old(openCount) && CoverGrows(c1, cells[..])
        invariant forall m :: 0 <= m < k ==> Covered(cells[nbi[m]])
      {
        var idx := ToIndex(size, nb[k]);
        assert idx == nbi[k];
        ExpandCell(s0, p, idx, mineOpened, c1, old(openCount), nbi, k, seeds);
      }
      assert nbi[..|nb|] == nbi;
      RevealClose(s0, cells[..], queued, size, mineOpened, p);
    }

    /**
     * The flood fill of `open`: pop a cell, open it, and expand from it if it
     * counts no mine, until the queue is empty. Every cell opened on the
     * way ends a zero path from an unflagged seed. A queue that starts as
     * one numbered cell opens that cell alone.
     */
    method Flood(ghost s0: seq<Cell>, mineOpened0: bool, ghost seeds: seq<nat>) returns (mineOpened: bool)
      requires Revealing(s0, mineOpened0, -1) && AdjacencyOk(s0, size)
      requires |queued| <= 1 || QueueZero(s0, queued)
      requires Watched(cells[..], seeds) && Explained(s0, cells[..], size, seeds)
      modifies this`openCount, this`flagCount, this`frontline, this`begFrontline, this`endFrontline, this`queued, cells, frontline
      ensures Revealing(s0, mineOpened, -1) && queued == []
      ensures frontline == old(frontline) || fresh(frontline)
      ensures Watched(cells[..], seeds) && Explained(s0, cells[..], size, seeds)
      ensures old(|queued| == 1 && cells[queued[0]].adjacentMines != 0) ==>
                var p := old(queued[0]);
                && cells[..] == old(cells[..])[p := old(cells[p]).(open := true, flagged := false, frontline := false)]
                && mineOpened == (mineOpened0 || old(cells[p].mined))
    {
      ghost var c0 := cells[..];
      ghost var solo := |queued| == 1 && cells[queued[0]].adjacentMines != 0;
      ghost var start := if solo then queued[0] else 0;
      mineOpened := mineOpened0;
      while !IsFrontlineEmpty()
        invariant Flooding(s0, mineOpened, seeds, solo, start, c0, mineOpened0)
        invariant frontline == old(frontline) || fresh(frontline)
        decreases cells.Length - openCount
      {
        mineOpened := FloodStep(s0, mineOpened, seeds, solo, start, c0, mineOpened0);
      }
    }

    /**
     * What the flood loop keeps: a consistent, sound reveal with at most one
     * queued cell of non-zero count, whose seeds stay opened, queued or
     * flagged; and when the queue started as one numbered cell `start`,
     * either that cell is still queued and nothing changed, or it alone has
     * been opened.
     */
    ghost predicate Flooding(s0: seq<Cell>, mineOpened: bool, seeds: seq<nat>, solo: bool, start: nat, c0: seq<Cell>, mo0: bool)
      reads this, cells, frontline
    {
      && Revealing(s0, mineOpened, -1) && (|queued| <= 1 || QueueZero(s0, queued))
      && Watched(cells[..], seeds) && Explained(s0, cells[..], size, seeds)
      && (solo ==> start < |c0| && c0[start].adjacentMines != 0)
      && (solo ==>
            || (queued == [start] && cells[..] == c0 && mineOpened == mo0)
            || (queued == [] && mineOpened == (mo0 || c0[start].mined) &&
                cells[..] == c0[start := c0[start].(open := true, flagged := false, frontline := false)]))
    }

    /** One pass of the flood loop: open the next queued cell and, when its count is zero, expand from it. */
    method FloodStep(ghost s0: seq<Cell>, mineOpened0: bool, ghost seeds: seq<nat>, ghost solo: bool, ghost start: nat,
                     ghost c0: seq<Cell>, ghost mo0: bool) returns (mineOpened: bool)
      requires AdjacencyOk(s0, size) && queued != []
      requires Flooding(s0, mineOpened0, seeds, solo, start, c0, mo0)
      modifies this`openCount, this`flagCount, this`frontline, this`begFrontline, this`endFrontline, this`queued, cells, frontline
      ensures Flooding(s0, mineOpened, seeds, solo, start, c0, mo0)
      ensures frontline == old(frontline) || fresh(frontline)
      ensures openCount > old(openCount)
    {
      var index, mined := RevealNext(s0, mineOpened0, seeds);
      mineOpened := mineOpened0 || mined;
      if cells[index].adjacentMines != 0 {
        return;
      }
      ghost var s := cells[..];
      ExpandFrom(s0, index, mineOpened, seeds);
      WatchedKept(s0, s, cells[..], seeds);
    }

    /**
     * `open(index)`. A flagged cell is left alone. An opened cell is a chord:
     * unless the flags in its block number its count, nothing happens;
     * otherwise its unflagged block is opened or queued. An unopened cell is
     * queued. The flood fill then runs. The result tells whether a mine was
     * opened.
     */
    method Open(index: nat) returns (mineOpened: bool)
      requires Valid() && index < cells.Length
      modifies this`openCount, this`flagCount, this`frontline, this`begFrontline, this`endFrontline, this`queued, cells, frontline
      ensures Valid() && RevealStep(old(cells[..]), cells[..])
      ensures MineOpenedIs(old(cells[..]), cells[..], mineOpened)
      ensures OpenResult(old(cells[..]), cells[..], size, index)
      ensures old(cells[index].flagged) ==> !mineOpened && cells[..] == old(cells[..])
      ensures old(cells[index].open) && FlaggedAround(old(cells[..]), size, index) != old(cells[index].adjacentMines) ==>
                !mineOpened && cells[..] == old(cells[..])
      ensures old(!cells[index].flagged && (!cells[index].open || FlaggedAround(cells[..], size, index) == cells[index].adjacentMines)) ==>
                cells[index].open && ClosedExcept(old(cells[..]), cells[..], size, -1)
      ensures old(cells[index].open && FlaggedAround(cells[..], size, index) == cells[index].adjacentMines) ==>
                forall m :: 0 <= m < |NeighbourIndices(size, index)| ==>
                  cells[NeighbourIndices(size, index)[m]].open || cells[NeighbourIndices(size, index)[m]].flagged
      ensures old(!cells[index].open && !cells[index].flagged && cells[index].adjacentMines != 0) ==>
                cells[..] == old(cells[..])[index := old(cells[index]).(open := true)]
      ensures frontline == old(frontline) || fresh(frontline)
    {
      if cells[index].flagged {
        return false;
      }
      if cells[index].open {
        var flaggedNeighbourCount := CountFlaggedAround(index);
        if flaggedNeighbourCount != cells[index].adjacentMines {
          return false;
        }
        mineOpened := Chord(index);
      } else {
        mineOpened := OpenCovered(index);
      }
    }

    /**
     * The chord branch of `open`: the target is opened and as many of its
     * neighbours are flagged as it counts mines, so every unflagged neighbour
     * is revealed, zero cells spreading the reveal, and nothing else opens.
     */
    method Chord(index: nat) returns (mineOpened: bool)
      requires Valid() && index < cells.Length && cells[index].open
      requires FlaggedAround(cells[..], size, index) == cells[index].adjacentMines
      modifies this`openCount, this`flagCount, this`frontline, this`begFrontline, this`endFrontline, this`queued, cells, frontline
      ensures Valid() && RevealStep(old(cells[..]), cells[..])
      ensures MineOpenedIs(old(cells[..]), cells[..], mineOpened)
      ensures ClosedExcept(old(cells[..]), cells[..], size, -1)
      ensures forall m :: 0 <= m < |NeighbourIndices(size, index)| ==>
                cells[NeighbourIndices(size, index)[m]].open || cells[NeighbourIndices(size, index)[m]].flagged
      ensures RevealedRegion(old(cells[..]), cells[..], size, NeighbourIndices(size, index))
      ensures frontline == old(frontline) || fresh(frontline)
    {
      ghost var s0 := cells[..];
      mineOpened := ChordNeighbours(index);
      mineOpened := Flood(s0, mineOpened, NeighbourIndices(size, index));
      AdjacencyKept(s0, cells[..], size);
      RevealRegion(s0, cells[..], size, NeighbourIndices(size, index));
    }

    /**
     * The other branch of `open`: a covered, unflagged target is queued alone
     * and the queue is drained; a numbered target opens only itself, and
     * otherwise exactly the cells reached from it by zero paths open.
     */
    method OpenCovered(index: nat) returns (mineOpened: bool)
      requires Valid() && index < cells.Length && !cells[index].open && !cells[index].flagged
      modifies this`openCount, this`flagCount, this`frontline, this`begFrontline, this`endFrontline, this`queued, cells, frontline
      ensures Valid() && RevealStep(old(cells[..]), cells[..])
      ensures MineOpenedIs(old(cells[..]), cells[..], mineOpened)
      ensures cells[index].open && ClosedExcept(old(cells[..]), cells[..], size, -1)
      ensures old(cells[index].adjacentMines) != 0 ==> cells[..] == old(cells[..])[index := old(cells[index]).(open := true)]
      ensures RevealedRegion(old(cells[..]), cells[..], size, [index])
      ensures frontline == old(frontline) || fresh(frontline)
    {
      ghost var s0 := cells[..];
      QueueTarget(index);
      mineOpened := Flood(s0, false, [index]);
      AdjacencyKept(s0, cells[..], size);
      RevealRegion(s0, cells[..], size, [index]);
    }

    /** The start of that branch: the target alone is queued (`pushFrontline(index)`), a reveal seeded by it. */
    method QueueTarget(index: nat)
      requires Valid() && index < cells.Length && !cells[index].open && !cells[index].flagged
      modifies this`frontline, this`begFrontline, this`endFrontline, this`queued, frontline, cells
      ensures Revealing(old(cells[..]), false, -1) && queued == [index]
      ensures Watched(cells[..], [index]) && Explained(old(cells[..]), cells[..], size, [index])
      ensures cells[..] == old(cells[..])[index := old(cells[index]).(frontline := true)]
      ensures frontline == old(frontline) || fresh(frontline)
    {
      ghost var s0 := cells[..];
      RevealStart(s0, size);
      RevealPush(s0, s0, [], size, false, -1, index);
      MarkKeepsCounted(s0, index, true, openCount, flagCount);
      SeedReached(s0, size, [index], index);
      PushFrontline(index);
    }
  }
}

=== FILE: cells.dfy ===
/**
 * The per-square record of the board (the `Cell` bit-field of src/Board.h)
 * and the counting that relates its fields: how many cells are opened,
 * flagged or mined, and the adjacency count that every cell must carry.
 */
module Cells {
  import opened Grid

  /** The 5-bit `adjacentMines` field: values 0..31. */
  type Count5 = n: nat | n < 32

  /**
   * One square (the C++ field `opened` is called `open` here, since
   * `opened` is a Dafny keyword).  `frontline` is the transient marker set while the cell's
   * index sits in the reveal queue; it belongs to the board header that goes
   * with src/Board.cpp.
   */
  datatype Cell = Cell(mined: bool, open: bool, flagged: bool, adjacentMines: Count5, frontline: bool)

  /** The value-initialised cell `{}`. */
  const BlankCell: Cell := Cell(false, false, false, 0, false)

  predicate IsMined(c: Cell) { c.mined }
  predicate IsUnmined(c: Cell) { !c.mined }
  predicate IsOpened(c: Cell) { c.open }
  predicate IsFlagged(c: Cell) { c.flagged }

  // ---------------------------------------------------------------------------
  // Counting
  // ---------------------------------------------------------------------------

  /** The number of cells of s that satisfy p. */
  function Count(s: seq<Cell>, p: Cell -> bool): (n: nat)
    ensures n <= |s|
    decreases |s|
  {
    if s == [] then 0 else Count(s[..|s| - 1], p) + (if p(s[|s| - 1]) then 1 else 0)
  }

  /** Replacing one cell moves the count by the change of that cell alone. */
  lemma {:induction false} CountUpdate(s: seq<Cell>, k: nat, v: Cell, p: Cell -> bool)
    requires k < |s|
    ensures Count(s[k := v], p) == Count(s, p) - (if p(s[k]) then 1 else 0) + (if p(v) then 1 else 0)
    decreases |s|
  {
    var t := s[k := v];
    if k < |s| - 1 {
      assert t[..|t| - 1] == s[..|s| - 1][k := v];
      CountUpdate(s[..|s| - 1], k, v, p);
    } else {
      assert t[..|t| - 1] == s[..|s| - 1];
    }
  }

  /** Counts agree on sequences whose cells agree on p. */
  lemma {:induction false} CountSame(s: seq<Cell>, t: seq<Cell>, p: Cell -> bool)
    requires |s| == |t| && forall j :: 0 <= j < |s| ==> p(s[j]) == p(t[j])
    ensures Count(s, p) == Count(t, p)
    decreases |s|
  {
    if s != [] {
      CountSame(s[..|s| - 1], t[..|t| - 1], p);
    }
  }

  /** A sequence with no cell satisfying p counts zero. */
  lemma {:induction false} CountNone(s: seq<Cell>, p: Cell -> bool)
    requires forall j :: 0 <= j < |s| ==> !p(s[j])
    ensures Count(s, p) == 0
    decreases |s|
  {
    if s != [] {
      CountNone(s[..|s| - 1], p);
    }
  }

  /** Every cell is either mined or unmined. */
  lemma {:induction false} MinedUnminedSplit(s: seq<Cell>)
    ensures Count(s, IsMined) + Count(s, IsUnmined) == |s|
    decreases |s|
  {
    if s != [] {
      MinedUnminedSplit(s[..|s| - 1]);
    }
  }

  /**
   * When no opened cell is mined, the opened cells are at most as many as the
   * unmined ones, and as many exactly when every unmined cell is opened.
   */
  lemma {:induction false} OpenedUnminedCount(s: seq<Cell>)
    requires forall j :: 0 <= j < |s| && s[j].open ==> !s[j].mined
    ensures Count(s, IsOpened) <= Count(s, IsUnmined)
    ensures Count(s, IsOpened) == Count(s, IsUnmined) <==> forall j :: 0 <= j < |s| && !s[j].mined ==> s[j].open
    decreases |s|
  {
    if s != [] {
      var u := s[..|s| - 1];
      OpenedUnminedCount(u);
      assert forall j :: 0 <= j < |u| ==> u[j] == s[j];
    }
  }

  /** The number of cells at the listed indices that satisfy p. */
  function CountAt(s: seq<Cell>, idx: seq<nat>, p: Cell -> bool): (n: nat)
    requires forall k :: 0 <= k < |idx| ==> idx[k] < |s|
    ensures n <= |idx|
    decreases |idx|
  {
    if idx == [] then 0
    else CountAt(s, idx[..|idx| - 1], p) + (if p(s[idx[|idx| - 1]]) then 1 else 0)
  }

  /**
   * Replacing the cell at index k changes a count over a duplicate-free index
   * list only if k is listed, and then by that cell's change alone.
   */
  lemma {:induction false} CountAtUpdate(s: seq<Cell>, idx: seq<nat>, k: nat, v: Cell, p: Cell -> bool)
    requires forall m :: 0 <= m < |idx| ==> idx[m] < |s|
    requires k < |s| && NoDup(idx)
    ensures CountAt(s[k := v], idx, p) ==
            CountAt(s, idx, p) + (if k in idx then (if p(v) then 1 else 0) - (if p(s[k]) then 1 else 0) else 0)
    decreases |idx|
  {
    if idx != [] {
      var init := idx[..|idx| - 1];
      assert NoDup(init);
      CountAtUpdate(s, init, k, v, p);
      assert k in idx <==> k in init || k == idx[|idx| - 1];
      assert k == idx[|idx| - 1] ==> k !in init;
    }
  }

  /** Counts at the same indices agree on sequences whose cells agree on p. */
  lemma {:induction false} CountAtSame(s: seq<Cell>, t: seq<Cell>, idx: seq<nat>, p: Cell -> bool)
    requires |s| == |t| && forall j :: 0 <= j < |s| ==> p(s[j]) == p(t[j])
    requires forall m :: 0 <= m < |idx| ==> idx[m] < |s|
    ensures CountAt(s, idx, p) == CountAt(t, idx, p)
    decreases |idx|
  {
    if idx != [] {
      CountAtSame(s, t, idx[..|idx| - 1], p);
    }
  }

  /** A count at the listed indices is zero exactly when no listed cell satisfies p. */
  lemma {:induction false} CountAtZero(s: seq<Cell>, idx: seq<nat>, p: Cell -> bool)
    requires forall m :: 0 <= m < |idx| ==> idx[m] < |s|
    ensures CountAt(s, idx, p) == 0 <==> forall m :: 0 <= m < |idx| ==> !p(s[idx[m]])
    decreases |idx|
  {
    if idx != [] {
      CountAtZero(s, idx[..|idx| - 1], p);
    }
  }

  // ---------------------------------------------------------------------------
  // The adjacency count
  // ---------------------------------------------------------------------------

  /** Mined cells in the 3x3 block around cell i, the cell itself included. */
  function MinesAround(s: seq<Cell>, size: Vec2s, i: nat): nat
    requires |s| == size.x * size.y && i < |s|
  {
    CountAt(s, NeighbourIndices(size, i), IsMined)
  }

  /** Flagged cells in the 3x3 block around cell i, the cell itself included. */
  function FlaggedAround(s: seq<Cell>, size: Vec2s, i: nat): nat
    requires |s| == size.x * size.y && i < |s|
  {
    CountAt(s, NeighbourIndices(size, i), IsFlagged)
  }

  /** Every cell's adjacentMines is the number of mined cells in its 3x3 block. */
  ghost predicate AdjacencyOk(s: seq<Cell>, size: Vec2s)
  {
    && |s| == size.x * size.y
    && forall i {:trigger MinesAround(s, size, i)} :: 0 <= i < |s| ==> s[i].adjacentMines == MinesAround(s, size, i)
  }

  /** The adjacency count depends on the mined flags only. */
  lemma MinesAroundSame(s: seq<Cell>, t: seq<Cell>, size: Vec2s, i: nat)
    requires |s| == |t| == size.x * size.y && i < |s|
    requires forall j :: 0 <= j < |s| ==> s[j].mined == t[j].mined
    ensures MinesAround(s, size, i) == MinesAround(t, size, i)
  {
    CountAtSame(s, t, NeighbourIndices(size, i), IsMined);
  }

  /** Adjacency survives any change that keeps every mined flag and every adjacentMines. */
  lemma AdjacencyKept(s: seq<Cell>, t: seq<Cell>, size: Vec2s)
    requires AdjacencyOk(s, size) && |t| == |s|
    requires forall j :: 0 <= j < |s| ==> t[j].mined == s[j].mined && t[j].adjacentMines == s[j].adjacentMines
    ensures AdjacencyOk(t, size)
  {
    forall i | 0 <= i < |t|
      ensures t[i].adjacentMines == MinesAround(t, size, i)
    {
      MinesAroundSame(s, t, size, i);
    }
  }

  /** The 3x3 count fits the 5-bit field with room to spare: at most 9. */
  lemma AdjacencyBound(s: seq<Cell>, size: Vec2s, i: nat)
    requires AdjacencyOk(s, size) && i < |s|
    ensures s[i].adjacentMines <= 9
  {
    assert s[i].adjacentMines == MinesAround(s, size, i);
    NeighboursCount(size, ToCoordinates(size, i));
  }

  /** Because the block includes the cell itself, a mined cell counts at least one mine. */
  lemma MinedCountsItself(s: seq<Cell>, size: Vec2s, i: nat)
    requires AdjacencyOk(s, size) && i < |s| && s[i].mined
    ensures s[i].adjacentMines >= 1
  {
    assert s[i].adjacentMines == MinesAround(s, size, i);
    var idx := NeighbourIndices(size, i);
    SelfNeighbour(size, i);
    CountAtZero(s, idx, IsMined);
  }

  /** A cell counting zero mines has no mined cell in its block. */
  lemma ZeroCountNoMine(s: seq<Cell>, size: Vec2s, i: nat, j: nat)
    requires AdjacencyOk(s, size) && i < |s| && s[i].adjacentMines == 0
    requires j in NeighbourIndices(size, i)
    ensures !s[j].mined
  {
    assert s[i].adjacentMines == MinesAround(s, size, i);
    CountAtZero(s, NeighbourIndices(size, i), IsMined);
  }

  /** A board without mines satisfies the adjacency invariant when every count is zero. */
  lemma BlankAdjacency(s: seq<Cell>, size: Vec2s)
    requires |s| == size.x * size.y
    requires forall j :: 0 <= j < |s| ==> !s[j].mined && s[j].adjacentMines == 0
    ensures AdjacencyOk(s, size)
  {
    forall i | 0 <= i < |s|
      ensures s[i].adjacentMines == MinesAround(s, size, i)
    {
      CountAtZero(s, NeighbourIndices(size, i), IsMined);
    }
  }

  // ---------------------------------------------------------------------------
  // Mining and unmining a cell
  // ---------------------------------------------------------------------------

  /**
   * The board after `mineCell(k)`: cell k is mined and every cell of its 3x3
   * block (itself included) counts one more mine.
   */
  ghost function Mine(s: seq<Cell>, size: Vec2s, k: nat): (r: seq<Cell>)
    requires AdjacencyOk(s, size) && k < |s|
    ensures |r| == |s|
  {
    seq(|s|, j requires 0 <= j < |s| =>
      AdjacencyBound(s, size, j);
      s[j].(mined := s[j].mined || j == k,
            adjacentMines := s[j].adjacentMines + if j in NeighbourIndices(size, k) then 1 else 0))
  }

  /**
   * The board after unmining k: cell k loses its mine and every cell of its
   * block counts one fewer (never below zero, since each of them counted k).
   */
  ghost function Unmine(s: seq<Cell>, size: Vec2s, k: nat): (r: seq<Cell>)
    requires AdjacencyOk(s, size) && k < |s| && s[k].mined
    ensures |r| == |s|
  {
    seq(|s|, j requires 0 <= j < |s| =>
      UnmineNoUnderflow(s, size, k, j);
      s[j].(mined := s[j].mined && j != k,
            adjacentMines := s[j].adjacentMines - if j in NeighbourIndices(size, k) then 1 else 0))
  }

  lemma UnmineNoUnderflow(s: seq<Cell>, size: Vec2s, k: nat, j: nat)
    requires AdjacencyOk(s, size) && k < |s| && s[k].mined && j < |s|
    ensures j in NeighbourIndices(size, k) ==> s[j].adjacentMines >= 1
  {
    if j in NeighbourIndices(size, k) {
      NeighbourIndicesSymmetric(size, k, j);
      assert s[j].adjacentMines == MinesAround(s, size, j);
      CountAtZero(s, NeighbourIndices(size, j), IsMined);
    }
  }

  /** The count of cell i after flipping the mine flag of cell k alone. */
  lemma FlipMine(s: seq<Cell>, size: Vec2s, k: nat, i: nat, v: bool)
    requires |s| == size.x * size.y && k < |s| && i < |s| && s[k].mined != v
    ensures MinesAround(s[k := s[k].(mined := v)], size, i) ==
            MinesAround(s, size, i) + (if i in NeighbourIndices(size, k) then (if v then 1 else -1) else 0)
  {
    NeighbourIndicesNoDup(size, i);
    NeighbourIndicesSymmetric(size, k, i);
    CountAtUpdate(s, NeighbourIndices(size, i), k, s[k].(mined := v), IsMined);
  }

  /** After mining k, cell i still counts the mines of its block. */
  lemma MineKeepsCount(s: seq<Cell>, size: Vec2s, k: nat, i: nat)
    requires AdjacencyOk(s, size) && k < |s| && !s[k].mined && i < |s|
    ensures Mine(s, size, k)[i].adjacentMines == MinesAround(Mine(s, size, k), size, i)
  {
    var r := Mine(s, size, k);
    var t := s[k := s[k].(mined := true)];
    FlipMine(s, size, k, i, true);
    NeighbourIndicesSymmetric(size, k, i);
    MinesAroundSame(r, t, size, i);
  }

  /** After unmining k, cell i still counts the mines of its block. */
  lemma UnmineKeepsCount(s: seq<Cell>, size: Vec2s, k: nat, i: nat)
    requires AdjacencyOk(s, size) && k < |s| && s[k].mined && i < |s|
    ensures Unmine(s, size, k)[i].adjacentMines == MinesAround(Unmine(s, size, k), size, i)
  {
    var r := Unmine(s, size, k);
    var t := s[k := s[k].(mined := false)];
    FlipMine(s, size, k, i, false);
    NeighbourIndicesSymmetric(size, k, i);
    MinesAroundSame(r, t, size, i);
  }

  /** mineCell mines exactly k, touches no other mine flag and no other field but the counts. */
  lemma MineFlags(s: seq<Cell>, size: Vec2s, k: nat)
    requires AdjacencyOk(s, size) && k < |s|
    ensures forall j :: 0 <= j < |s| ==> Mine(s, size, k)[j].mined == (j == k || s[j].mined)
    ensures forall j :: 0 <= j < |s| ==>
              var c := Mine(s, size, k)[j];
              c.open == s[j].open && c.flagged == s[j].flagged && c.frontline == s[j].frontline
  {
  }

  /** mineCell keeps every count right. */
  lemma MinePreservesAdjacency(s: seq<Cell>, size: Vec2s, k: nat)
    requires AdjacencyOk(s, size) && k < |s| && !s[k].mined
    ensures AdjacencyOk(Mine(s, size, k), size)
  {
    var r := Mine(s, size, k);
    forall i | 0 <= i < |r|
      ensures r[i].adjacentMines == MinesAround(r, size, i)
    {
      MineKeepsCount(s, size, k, i);
    }
  }

  /** mineCell adds exactly one mine. */
  lemma MineCount(s: seq<Cell>, size: Vec2s, k: nat)
    requires AdjacencyOk(s, size) && k < |s| && !s[k].mined
    ensures Count(Mine(s, size, k), IsMined) == Count(s, IsMined) + 1
  {
    var r := Mine(s, size, k);
    MineFlags(s, size, k);
    var t := s[k := s[k].(mined := true)];
    assert forall j :: 0 <= j < |r| ==> r[j].mined == t[j].mined;
    assert forall j :: 0 <= j < |r| ==> IsMined(r[j]) == IsMined(t[j]);
    CountSame(r, t, IsMined);
    CountUpdate(s, k, t[k], IsMined);
  }

  /** Unmining k clears exactly that mine flag and touches no other field but the counts. */
  lemma UnmineFlags(s: seq<Cell>, size: Vec2s, k: nat)
    requires AdjacencyOk(s, size) && k < |s| && s[k].mined
    ensures forall j :: 0 <= j < |s| ==> Unmine(s, size, k)[j].mined == (j != k && s[j].mined)
    ensures forall j :: 0 <= j < |s| ==>
              var c := Unmine(s, size, k)[j];
              c.open == s[j].open && c.flagged == s[j].flagged && c.frontline == s[j].frontline
  {
  }

  /** Unmining keeps every count right. */
  lemma UnminePreservesAdjacency(s: seq<Cell>, size: Vec2s, k: nat)
    requires AdjacencyOk(s, size) && k < |s| && s[k].mined
    ensures AdjacencyOk(Unmine(s, size, k), size)
  {
    var r := Unmine(s, size, k);
    forall i | 0 <= i < |r|
      ensures r[i].adjacentMines == MinesAround(r, size, i)
    {
      UnmineKeepsCount(s, size, k, i);
    }
  }

  /** Unmining removes exactly one mine. */
  lemma UnmineCount(s: seq<Cell>, size: Vec2s, k: nat)
    requires AdjacencyOk(s, size) && k < |s| && s[k].mined
    ensures Count(Unmine(s, size, k), IsMined) + 1 == Count(s, IsMined)
  {
    var r := Unmine(s, size, k);
    UnmineFlags(s, size, k);
    var t := s[k := s[k].(mined := false)];
    assert forall j :: 0 <= j < |r| ==> r[j].mined == t[j].mined;
    assert forall j :: 0 <= j < |r| ==> IsMined(r[j]) == IsMined(t[j]);
    CountSame(r, t, IsMined);
    CountUpdate(s, k, t[k], IsMined);
  }
}

=== FILE: event_bus.dfy ===
/**
 * The event bus (src/Event/EventBus.cpp): for each event id, an ordered list
 * of subscriptions, each a subscriber callback paired with a handle.
 * Subscribers are foreign callables and are modelled as opaque identifiers;
 * publishing is modelled by the sequence of subscribers it invokes.
 */
module Events {
  import opened Grid
  import opened Seqs

  type EventId = SizeT
  type Handle = SizeT

  datatype Subscription = Subscription(subscriber: nat, handle: Handle)

  /** No two subscriptions in the list share a handle. */
  predicate UniqueHandles(s: seq<Subscription>)
  {
    forall i, j :: 0 <= i < j < |s| ==> s[i].handle != s[j].handle
  }

  predicate HasHandle(s: seq<Subscription>, h: Handle)
  {
    exists k :: 0 <= k < |s| && s[k].handle == h
  }

  /** The position of the first subscription with handle h, or |s| when there is none. */
  function FindHandle(s: seq<Subscription>, h: Handle): (r: nat)
    ensures r <= |s|
    ensures r < |s| ==> s[r].handle == h
    ensures forall k :: 0 <= k < r ==> s[k].handle != h
    ensures r == |s| <==> !HasHandle(s, h)
    decreases |s|
  {
    if |s| == 0 then 0
    else if s[0].handle == h then 0
    else
      var r := 1 + FindHandle(s[1..], h);
      assert forall k :: 1 <= k < |s| ==> s[k] == s[1..][k - 1];
      r
  }

  /** The list after subscribing: the subscriber of handle h replaced in place, or appended. */
  function Subscribed(s: seq<Subscription>, subscriber: nat, h: Handle): seq<Subscription>
  {
    var k := FindHandle(s, h);
    if k < |s| then s[k := Subscription(subscriber, h)] else s + [Subscription(subscriber, h)]
  }

  /** The list after unsubscribing: the first subscription with handle h erased. */
  function Unsubscribed(s: seq<Subscription>, h: Handle): seq<Subscription>
  {
    var k := FindHandle(s, h);
    if k < |s| then s[..k] + s[k + 1..] else s
  }

  /**
   * Subscribing replaces in place (same length, every other entry kept) when
   * the handle is present and appends one entry at the end otherwise; either
   * way exactly one entry carries the handle afterwards, holding the new
   * subscriber, provided the handles were unique before, and they stay unique.
   */
  lemma SubscribedShape(s: seq<Subscription>, subscriber: nat, h: Handle)
    requires UniqueHandles(s)
    ensures var r := Subscribed(s, subscriber, h);
            && UniqueHandles(r) && HasHandle(r, h)
            && (HasHandle(s, h) ==> |r| == |s| && forall k :: 0 <= k < |s| && s[k].handle != h ==> r[k] == s[k])
            && (!HasHandle(s, h) ==> r == s + [Subscription(subscriber, h)])
            && forall k :: 0 <= k < |r| && r[k].handle == h ==> r[k].subscriber == subscriber
  {
    var k := FindHandle(s, h);
    var r := Subscribed(s, subscriber, h);
    if k < |s| {
      forall i, j | 0 <= i < j < |r|
        ensures r[i].handle != r[j].handle
      {
        assert r[i].handle == s[i].handle && r[j].handle == s[j].handle;
      }
      assert r[k].handle == h;
    } else {
      forall i, j | 0 <= i < j < |r|
        ensures r[i].handle != r[j].handle
      {
        if j == |s| {
          assert s[i].handle != h;
        }
      }
      assert r[|s|].handle == h;
    }
  }

  /**
   * Unsubscribing erases exactly the first entry with the handle, keeping the
   * entries before and after it in order, and changes nothing when the handle
   * is absent.
   */
  lemma UnsubscribedShape(s: seq<Subscription>, h: Handle)
    ensures var r := Unsubscribed(s, h);
            && (HasHandle(s, h) <==> |r| == |s| - 1)
            && (!HasHandle(s, h) ==> r == s)
            && (HasHandle(s, h) ==> multiset(r) + multiset{s[FindHandle(s, h)]} == multiset(s))
  {
    var k := FindHandle(s, h);
    if k < |s| {
      CutMultiset(s, k);
    }
  }

  /** With unique handles, unsubscribing leaves no entry with the handle, and the rest stay unique. */
  lemma UnsubscribedUnique(s: seq<Subscription>, h: Handle)
    requires UniqueHandles(s)
    ensures UniqueHandles(Unsubscribed(s, h)) && !HasHandle(Unsubscribed(s, h), h)
  {
    var k := FindHandle(s, h);
    var r := Unsubscribed(s, h);
    if k < |s| {
      assert forall i :: 0 <= i < |r| ==> r[i] == s[if i < k then i else i + 1];
      forall m | 0 <= m < |r|
        ensures r[m].handle != h
      {
        assert r[m] == s[if m < k then m else m + 1];
      }
    }
  }

  class EventBus {
    /** The subscription lists; looking up an absent id inserts an empty list, as operator[] does. */
    var subscriptions: map<EventId, seq<Subscription>>

    /** Every list has unique handles: subscribe is the only way in, and it never duplicates a handle. */
    ghost predicate Valid()
      reads this
    {
      forall id :: id in subscriptions ==> UniqueHandles(subscriptions[id])
    }

    /** The list of an event id, empty when none was ever looked up. */
    function Subs(id: EventId): seq<Subscription>
      reads this
    {
      if id in subscriptions then subscriptions[id] else []
    }

    constructor()
      ensures subscriptions == map[] && Valid()
    {
      subscriptions := map[];
    }

    /** `subscribe(subscriber, handle, eventId)`: replace the subscriber with that handle, or append. */
    method Subscribe(subscriber: nat, handle: Handle, eventId: EventId)
      requires Valid()
      modifies this
      ensures Valid()
      ensures subscriptions == old(subscriptions)[eventId := Subscribed(old(Subs(eventId)), subscriber, handle)]
    {
      var subs := Subs(eventId);
      var i := 0;
      while i < |subs|
        invariant 0 <= i <= |subs|
        invariant forall k :: 0 <= k < i ==> subs[k].handle != handle
      {
        if subs[i].handle == handle {
          subscriptions := subscriptions[eventId := subs[i := Subscription(subscriber, handle)]];
          SubscribedShape(subs, subscriber, handle);
          return;
        }
        i := i + 1;
      }
      subscriptions := subscriptions[eventId := subs + [Subscription(subscriber, handle)]];
      SubscribedShape(subs, subscriber, handle);
    }

    /** `unsubscribe(handle, eventId)`: erase the first subscription with that handle, if any. */
    method Unsubscribe(handle: Handle, eventId: EventId)
      requires Valid()
      modifies this
      ensures Valid()
      ensures subscriptions == old(subscriptions)[eventId := Unsubscribed(old(Subs(eventId)), handle)]
    {
      var subs := Subs(eventId);
      UnsubscribedUnique(subs, handle);
      var i := 0;
      while i < |subs|
        invariant 0 <= i <= |subs|
        invariant forall k :: 0 <= k < i ==> subs[k].handle != handle
      {
        if subs[i].handle == handle {
          subscriptions := subscriptions[eventId := subs[..i] + subs[i + 1..]];
          return;
        }
        i := i + 1;
      }
      subscriptions := subscriptions[eventId := subs];
    }

    /** `publish(eventId, data)`: the subscribers of that id, invoked once each, in list order. */
    method Publish(eventId: EventId) returns (invoked: seq<nat>)
      requires Valid()
      modifies this
      ensures Valid()
      ensures subscriptions == old(subscriptions)[eventId := old(Subs(eventId))]
      ensures |invoked| == |Subs(eventId)|
      ensures forall k :: 0 <= k < |invoked| ==> invoked[k] == Subs(eventId)[k].subscriber
    {
      var subs := Subs(eventId);
      subscriptions := subscriptions[eventId := subs];
      invoked := [];
      var i := 0;
      while i < |subs|
        invariant 0 <= i <= |subs|
        invariant |invoked| == i
        invariant forall k :: 0 <= k < i ==> invoked[k] == subs[k].subscriber
      {
        invoked := invoked + [subs[i].subscriber];
        i := i + 1;
      }
    }
  }
}

=== FILE: grid.dfy ===
/**
 * Grid addressing and neighbour enumeration of the mine-clearing board
 * (src/Board.cpp, lines 1-56 and 91-133).
 *
 * Sizes, coordinates and indices are the C++ `std::size_t`: unsigned 64-bit
 * integers.  Adding the neighbour offsets wraps around modulo 2^64 exactly as
 * the C++ does, so "column - 1" at column 0 becomes SIZE_MAX and is rejected
 * by the bounds check instead of being negative.
 */
module Grid {

  /** 2^64: the number of `std::size_t` values. */
  const SizeLimit: nat := 0x1_0000_0000_0000_0000
  /** `std::numeric_limits<std::size_t>::max()`. */
  const SizeMax: nat := 0xFFFF_FFFF_FFFF_FFFF
  /** `std::vector<Cell>().max_size()`: implementation-defined; PTRDIFF_MAX for a one-byte cell. */
  const MaxVectorSize: nat := 0x7FFF_FFFF_FFFF_FFFF

  type SizeT = n: nat | n < SizeLimit

  /** A pair of unsigned coordinates (column x, row y), or a board size (width x, height y). */
  datatype Vec2s = Vec2s(x: SizeT, y: SizeT)

  /** The padding value of a neighbour range; never a valid coordinate. */
  const InvalidVec2s: Vec2s := Vec2s(SizeMax, SizeMax)

  /** Reduction of an unsigned computation modulo 2^64. */
  function Wrap(v: int): (r: SizeT)
    ensures 0 <= v < SizeLimit ==> r == v
    ensures v == -1 ==> r == SizeMax
  {
    v % SizeLimit
  }

  // ---------------------------------------------------------------------------
  // Addressing
  // ---------------------------------------------------------------------------

  /**
   * Both dimensions non-zero, `x * y` does not overflow a size_t, and the
   * cell count stays under the vector's maximum size.
   */
  function IsSizeValid(size: Vec2s): (valid: bool)
    ensures valid ==> 0 < size.x && 0 < size.y && size.x * size.y < MaxVectorSize
  {
    if size.x != 0 && size.y != 0 then
      size.x < SizeMax / size.y && size.x * size.y < MaxVectorSize
    else
      false
  }

  /** The overflow guard of IsSizeValid never rejects a size that the max_size check accepts. */
  lemma SizeValidIff(size: Vec2s)
    ensures IsSizeValid(size) <==> 0 < size.x && 0 < size.y && size.x * size.y < MaxVectorSize
  {
    if 0 < size.x && 0 < size.y && size.x * size.y < MaxVectorSize {
      OverflowGuardRedundant(size.x, size.y);
    }
  }

  lemma OverflowGuardRedundant(x: nat, y: nat)
    requires 0 < x && 0 < y && x * y < MaxVectorSize
    ensures x < SizeMax / y
  {
    var q, r := SizeMax / y, SizeMax % y;
    assert SizeMax == q * y + r;
    if q <= x {
      MulMono(q + 1, x + 1, y);
    }
  }

  /**
   * Coordinates are unsigned, so only the upper bounds are checked. Valid
   * coordinates lie on a non-empty board, and their row-major index
   * addresses one of its cells.
   */
  function AreCoordinatesValid(size: Vec2s, c: Vec2s): (valid: bool)
    ensures valid ==> 0 < size.x && 0 < size.y && c.x + c.y * size.x < size.x * size.y
  {
    if c.x < size.x && c.y < size.y then
      MulMono(c.y + 1, size.y, size.x);
      true
    else
      false
  }

  function ToIndex(size: Vec2s, c: Vec2s): (index: nat)
    requires AreCoordinatesValid(size, c)
    ensures index < size.x * size.y
  {
    MulMono(c.y + 1, size.y, size.x);
    c.x + c.y * size.x
  }

  function ToCoordinates(size: Vec2s, index: nat): (c: Vec2s)
    requires index < size.x * size.y
    ensures AreCoordinatesValid(size, c)
  {
    DivBelow(index, size.x, size.y);
    Vec2s(index % size.x, index / size.x)
  }

  /** Coordinates -> index -> coordinates is the identity on valid coordinates. */
  lemma {:induction false} CoordinatesRoundTrip(size: Vec2s, c: Vec2s)
    requires AreCoordinatesValid(size, c)
    ensures ToCoordinates(size, ToIndex(size, c)) == c
  {
    DivModOf(c.x, c.y, size.x);
  }

  /** Index -> coordinates -> index is the identity on valid indices. */
  lemma IndexRoundTrip(size: Vec2s, index: nat)
    requires index < size.x * size.y
    ensures ToIndex(size, ToCoordinates(size, index)) == index
  {
  }

  /** Distinct valid coordinates have distinct indices. */
  lemma ToIndexInjective(size: Vec2s, a: Vec2s, b: Vec2s)
    requires AreCoordinatesValid(size, a) && AreCoordinatesValid(size, b)
    ensures ToIndex(size, a) == ToIndex(size, b) ==> a == b
  {
    CoordinatesRoundTrip(size, a);
    CoordinatesRoundTrip(size, b);
  }

  // ---------------------------------------------------------------------------
  // Arithmetic helpers
  // ---------------------------------------------------------------------------

  lemma MulMono(a: nat, b: nat, w: nat)
    requires a <= b
    ensures a * w <= b * w
  {
  }

  lemma DivModOf(x: nat, y: nat, w: nat)
    requires x < w
    ensures (x + y * w) / w == y && (x + y * w) % w == x
  {
    var i := x + y * w;
    var q := i / w;
    assert i == q * w + i % w;
    if q > y {
      MulMono(y + 1, q, w);
    } else if q < y {
      MulMono(q + 1, y, w);
    }
  }

  lemma DivBelow(i: nat, w: nat, h: nat)
    requires i < w * h
    ensures 0 < w && i / w < h
  {
    var q := i / w;
    assert i == q * w + i % w;
    if q >= h {
      MulMono(h, q, w);
    }
  }

  // ---------------------------------------------------------------------------
  // Neighbour enumeration
  // ---------------------------------------------------------------------------

  /** A (column, row) offset. */
  type Delta = (int, int)

  /**
   * The nine offsets of the 3x3 block, in raster order (row above first,
   * left to right), INCLUDING the centre (0, 0).
   */
  const Offsets: seq<Delta> := [(-1, -1), (0, -1), (1, -1),
                                (-1,  0), (0,  0), (1,  0),
                                (-1,  1), (0,  1), (1,  1)]

  predicate IsUnitDelta(d: Delta)
  {
    -1 <= d.0 <= 1 && -1 <= d.1 <= 1
  }

  /**
   * `coordinates + dc`, computed in size_t: a component that stays in range
   * is the exact sum, and one that steps below zero becomes SIZE_MAX.
   */
  function Shift(c: Vec2s, d: Delta): (r: Vec2s)
    ensures 0 <= c.x + d.0 < SizeLimit ==> r.x == c.x + d.0
    ensures 0 <= c.y + d.1 < SizeLimit ==> r.y == c.y + d.1
    ensures c.x + d.0 == -1 ==> r.x == SizeMax
    ensures c.y + d.1 == -1 ==> r.y == SizeMax
  {
    Vec2s(Wrap(c.x + d.0), Wrap(c.y + d.1))
  }

  /** a and b lie in the same 3x3 block (Chebyshev distance at most 1). */
  predicate Near(a: Vec2s, b: Vec2s)
  {
    -1 <= a.x - b.x <= 1 && -1 <= a.y - b.y <= 1
  }

  /** The valid positions among c shifted by each of ds, in the order of ds. */
  function ValidShifts(size: Vec2s, c: Vec2s, ds: seq<Delta>): (r: seq<Vec2s>)
    ensures |r| <= |ds|
    ensures forall k :: 0 <= k < |r| ==> AreCoordinatesValid(size, r[k])
    decreases |ds|
  {
    if ds == [] then []
    else
      var last := Shift(c, ds[|ds| - 1]);
      ValidShifts(size, c, ds[..|ds| - 1]) + (if AreCoordinatesValid(size, last) then [last] else [])
  }

  /** The in-bounds cells of the 3x3 block around c, the centre included, in raster order. */
  function Neighbours(size: Vec2s, c: Vec2s): seq<Vec2s>
  {
    ValidShifts(size, c, Offsets)
  }

  predicate NoDup<T(==)>(s: seq<T>)
  {
    forall i, j :: 0 <= i < j < |s| ==> s[i] != s[j]
  }

  /** A unit shift of a valid position that lands in bounds did not wrap around. */
  lemma ShiftExact(size: Vec2s, c: Vec2s, d: Delta)
    requires AreCoordinatesValid(size, c) && IsUnitDelta(d)
    requires AreCoordinatesValid(size, Shift(c, d))
    ensures Shift(c, d).x == c.x + d.0 && Shift(c, d).y == c.y + d.1
  {
  }

  /** Distinct unit shifts of a valid position that land in bounds land on distinct cells. */
  lemma ShiftInjective(size: Vec2s, c: Vec2s, d1: Delta, d2: Delta)
    requires AreCoordinatesValid(size, c) && IsUnitDelta(d1) && IsUnitDelta(d2)
    requires AreCoordinatesValid(size, Shift(c, d1)) && Shift(c, d1) == Shift(c, d2)
    ensures d1 == d2
  {
    ShiftExact(size, c, d1);
    ShiftExact(size, c, d2);
  }

  lemma {:induction false} ValidShiftsMember(size: Vec2s, c: Vec2s, ds: seq<Delta>, v: Vec2s)
    ensures v in ValidShifts(size, c, ds) <==>
            AreCoordinatesValid(size, v) && exists k :: 0 <= k < |ds| && Shift(c, ds[k]) == v
    decreases |ds|
  {
    if ds != [] {
      var init := ds[..|ds| - 1];
      ValidShiftsMember(size, c, init, v);
      if exists k :: 0 <= k < |ds| && Shift(c, ds[k]) == v {
        var k :| 0 <= k < |ds| && Shift(c, ds[k]) == v;
        if k < |ds| - 1 {
          assert init[k] == ds[k];
        }
      }
      if exists k :: 0 <= k < |init| && Shift(c, init[k]) == v {
        var k :| 0 <= k < |init| && Shift(c, init[k]) == v;
        assert ds[k] == init[k];
      }
    }
  }

  lemma {:induction false} ValidShiftsNoDup(size: Vec2s, c: Vec2s, ds: seq<Delta>)
    requires AreCoordinatesValid(size, c)
    requires NoDup(ds) && forall k :: 0 <= k < |ds| ==> IsUnitDelta(ds[k])
    ensures NoDup(ValidShifts(size, c, ds))
    decreases |ds|
  {
    if ds != [] {
      var init, d := ds[..|ds| - 1], ds[|ds| - 1];
      var last := Shift(c, d);
      ValidShiftsNoDup(size, c, init);
      if AreCoordinatesValid(size, last) {
        ValidShiftsMember(size, c, init, last);
        assert forall k :: 0 <= k < |init| ==> init[k] == ds[k] != d;
        if last in ValidShifts(size, c, init) {
          var k :| 0 <= k < |init| && Shift(c, init[k]) == last;
          ShiftInjective(size, c, init[k], d);
        }
        NoDupSnoc(ValidShifts(size, c, init), last);
      }
    }
  }

  /** Appending an element that is not yet present keeps a sequence duplicate-free. */
  lemma NoDupSnoc<T>(s: seq<T>, x: T)
    requires NoDup(s) && x !in s
    ensures NoDup(s + [x])
  {
  }

  lemma {:induction false} ValidShiftsAll(size: Vec2s, c: Vec2s, ds: seq<Delta>)
    requires forall k :: 0 <= k < |ds| ==> AreCoordinatesValid(size, Shift(c, ds[k]))
    ensures |ValidShifts(size, c, ds)| == |ds|
    decreases |ds|
  {
    if ds != [] {
      ValidShiftsAll(size, c, ds[..|ds| - 1]);
    }
  }

  /** Every unit offset is one of the nine offsets. */
  lemma OffsetsComplete(d: Delta)
    requires IsUnitDelta(d)
    ensures d in Offsets
  {
    if d.1 == -1 {
      assert d == Offsets[d.0 + 1];
    } else if d.1 == 0 {
      assert d == Offsets[d.0 + 4];
    } else {
      assert d == Offsets[d.0 + 7];
    }
  }

  lemma OffsetsUnitAndDistinct()
    ensures NoDup(Offsets)
    ensures forall k :: 0 <= k < |Offsets| ==> IsUnitDelta(Offsets[k])
  {
  }

  /**
   * Exactly the in-bounds cells of the 3x3 block around a valid c (c itself
   * included) are enumerated; positions whose computation wrapped around are
   * never among them.
   */
  lemma NeighboursMember(size: Vec2s, c: Vec2s, v: Vec2s)
    requires AreCoordinatesValid(size, c)
    ensures v in Neighbours(size, c) <==> AreCoordinatesValid(size, v) && Near(v, c)
  {
    OffsetsUnitAndDistinct();
    ValidShiftsMember(size, c, Offsets, v);
    if v in Neighbours(size, c) {
      var k :| 0 <= k < |Offsets| && Shift(c, Offsets[k]) == v;
      ShiftExact(size, c, Offsets[k]);
    }
    if AreCoordinatesValid(size, v) && Near(v, c) {
      var d: Delta := (v.x - c.x, v.y - c.y);
      OffsetsComplete(d);
      var k :| 0 <= k < |Offsets| && Offsets[k] == d;
      assert Shift(c, Offsets[k]) == v;
    }
  }

  /** No cell is enumerated twice. */
  lemma NeighboursNoDup(size: Vec2s, c: Vec2s)
    requires AreCoordinatesValid(size, c)
    ensures NoDup(Neighbours(size, c))
  {
    OffsetsUnitAndDistinct();
    ValidShiftsNoDup(size, c, Offsets);
  }

  /** Between 1 and 9 cells, and exactly 9 for a cell away from every edge. */
  lemma NeighboursCount(size: Vec2s, c: Vec2s)
    requires AreCoordinatesValid(size, c)
    ensures 1 <= |Neighbours(size, c)| <= 9
    ensures 0 < c.x < size.x - 1 && 0 < c.y < size.y - 1 ==> |Neighbours(size, c)| == 9
  {
    NeighboursMember(size, c, c);
    if 0 < c.x < size.x - 1 && 0 < c.y < size.y - 1 {
      OffsetsUnitAndDistinct();
      ValidShiftsAll(size, c, Offsets);
    }
  }

  // ---------------------------------------------------------------------------
  // Index form of the neighbourhood
  // ---------------------------------------------------------------------------

  /** The cells at indices i and j lie in the same 3x3 block. */
  predicate Adjacent(size: Vec2s, i: nat, j: nat)
    requires i < size.x * size.y && j < size.x * size.y
  {
    Near(ToCoordinates(size, i), ToCoordinates(size, j))
  }

  /** The indices of the neighbour range of the cell at index i (the cell itself included). */
  function NeighbourIndices(size: Vec2s, i: nat): (r: seq<nat>)
    requires i < size.x * size.y
    ensures forall k :: 0 <= k < |r| ==> r[k] < size.x * size.y
  {
    var nb := Neighbours(size, ToCoordinates(size, i));
    seq(|nb|, k requires 0 <= k < |nb| => ToIndex(size, nb[k]))
  }

  /** j is enumerated around i exactly when the two cells are adjacent (or equal). */
  lemma NeighbourIndicesMember(size: Vec2s, i: nat, j: nat)
    requires i < size.x * size.y && j < size.x * size.y
    ensures j in NeighbourIndices(size, i) <==> Adjacent(size, j, i)
  {
    var c := ToCoordinates(size, i);
    var v := ToCoordinates(size, j);
    var nb := Neighbours(size, c);
    NeighboursMember(size, c, v);
    if j in NeighbourIndices(size, i) {
      var k :| 0 <= k < |nb| && NeighbourIndices(size, i)[k] == j;
      CoordinatesRoundTrip(size, nb[k]);
      NeighboursMember(size, c, nb[k]);
    }
    if Adjacent(size, j, i) {
      var k :| 0 <= k < |nb| && nb[k] == v;
      IndexRoundTrip(size, j);
      assert NeighbourIndices(size, i)[k] == j;
    }
  }

  lemma NeighbourIndicesNoDup(size: Vec2s, i: nat)
    requires i < size.x * size.y
    ensures NoDup(NeighbourIndices(size, i))
  {
    var c := ToCoordinates(size, i);
    var nb := Neighbours(size, c);
    NeighboursNoDup(size, c);
    forall a, b | 0 <= a < b < |nb|
      ensures NeighbourIndices(size, i)[a] != NeighbourIndices(size, i)[b]
    {
      ToIndexInjective(size, nb[a], nb[b]);
    }
  }

  /** Adjacency is symmetric, so j counts towards i exactly when i counts towards j. */
  lemma NeighbourIndicesSymmetric(size: Vec2s, i: nat, j: nat)
    requires i < size.x * size.y && j < size.x * size.y
    ensures j in NeighbourIndices(size, i) <==> i in NeighbourIndices(size, j)
  {
    NeighbourIndicesMember(size, i, j);
    NeighbourIndicesMember(size, j, i);
  }

  /** Every cell is its own neighbour. */
  lemma SelfNeighbour(size: Vec2s, i: nat)
    requires i < size.x * size.y
    ensures i in NeighbourIndices(size, i)
  {
    NeighbourIndicesMember(size, i, i);
  }

  // ---------------------------------------------------------------------------
  // NeighbourRange: a fixed nine-slot array padded with InvalidVec2s
  // ---------------------------------------------------------------------------

  /** One more offset appends its shift when that lands on the board. */
  lemma ValidShiftsStep(size: Vec2s, c: Vec2s, ds: seq<Delta>, k: nat)
    requires k < |ds|
    ensures ValidShifts(size, c, ds[..k + 1]) ==
            ValidShifts(size, c, ds[..k]) + (if AreCoordinatesValid(size, Shift(c, ds[k])) then [Shift(c, ds[k])] else [])
  {
    assert ds[..k + 1][..k] == ds[..k];
  }

  /**
   * The NeighbourRange constructor: keeps the in-bounds shifts of c in raster
   * order with a running counter, then pads the remaining slots.
   */
  method NeighbourRange(size: Vec2s, c: Vec2s) returns (neighbours: seq<Vec2s>)
    ensures |neighbours| == 9 && |Neighbours(size, c)| <= 9
    ensures neighbours[..|Neighbours(size, c)|] == Neighbours(size, c)
    ensures forall k :: |Neighbours(size, c)| <= k < 9 ==> neighbours[k] == InvalidVec2s
  {
    neighbours := seq(9, _ => Vec2s(0, 0));
    var n := 0;
    for k := 0 to 9
      invariant |neighbours| == 9
      invariant n == |ValidShifts(size, c, Offsets[..k])| && n <= k
      invariant neighbours[..n] == ValidShifts(size, c, Offsets[..k])
    {
      ValidShiftsStep(size, c, Offsets, k);
      var coo := Shift(c, Offsets[k]);
      if AreCoordinatesValid(size, coo) {
        assert neighbours[n := coo][..n + 1] == neighbours[..n] + [coo];
        neighbours := neighbours[n := coo];
        n := n + 1;
      }
    }
    assert Offsets[..9] == Offsets;
    while n < 9
      invariant |Neighbours(size, c)| <= n <= 9 && |neighbours| == 9
      invariant neighbours[..|Neighbours(size, c)|] == Neighbours(size, c)
      invariant forall k :: |Neighbours(size, c)| <= k < n ==> neighbours[k] == InvalidVec2s
    {
      neighbours := neighbours[n := InvalidVec2s];
      n := n + 1;
    }
  }

  /** `end()`: the position of the first padding slot, or the array's end. */
  method RangeEnd(neighbours: seq<Vec2s>) returns (e: nat)
    ensures e <= |neighbours|
    ensures forall k :: 0 <= k < e ==> neighbours[k] != InvalidVec2s
    ensures e < |neighbours| ==> neighbours[e] == InvalidVec2s
  {
    e := 0;
    while e < |neighbours|
      invariant e <= |neighbours|
      invariant forall k :: 0 <= k < e ==> neighbours[k] != InvalidVec2s
    {
      if neighbours[e] == InvalidVec2s {
        return;
      }
      e := e + 1;
    }
  }

  /**
   * `getNeigboursOf(c)` iterated from `begin()` to `end()`: the padding never
   * collides with a real neighbour, so the iteration yields exactly the
   * enumerated cells.
   */
  method NeighboursOf(size: Vec2s, c: Vec2s) returns (nb: seq<Vec2s>)
    ensures nb == Neighbours(size, c)
  {
    var range := NeighbourRange(size, c);
    var e := RangeEnd(range);
    ghost var n := |Neighbours(size, c)|;
    assert forall k :: 0 <= k < n ==> range[k] == Neighbours(size, c)[k];
    assert n < 9 ==> range[n] == InvalidVec2s;
    nb := range[..e];
  }
}

=== FILE: layer_stack.dfy ===
/**
 * The layer stack (src/Layer/LayerStack.cpp): a vector of owning layer
 * pointers, bottom first.  A layer is modelled by an opaque identifier and a
 * slot may be null; the layers' own callbacks are foreign code, so event
 * dispatch takes each layer's Yes/No answer as input and the traversals
 * return the slots or layers they call, in order.
 */
module Layers {
  import opened Grid
  import opened Seqs

  datatype Slot = Null | Layer(id: nat)

  /**
   * The slots handleEvent calls, starting at slot top - 1 and going down:
   * it stops right after the first layer that answers Yes.
   */
  function Dispatched(consumes: seq<bool>, top: nat): (r: seq<nat>)
    requires top <= |consumes|
    ensures forall a :: 0 <= a < |r| ==> r[a] < top
    decreases top
  {
    if top == 0 then []
    else if consumes[top - 1] then [top - 1]
    else [top - 1] + Dispatched(consumes, top - 1)
  }

  /**
   * A slot below top is called exactly when no slot between it and top
   * consumed the event, and the calls go strictly downwards.
   */
  lemma {:induction false} DispatchedIff(consumes: seq<bool>, top: nat)
    requires top <= |consumes|
    ensures forall j :: 0 <= j < top ==> (j in Dispatched(consumes, top) <==> forall k :: j < k < top ==> !consumes[k])
    ensures forall a, b :: 0 <= a < b < |Dispatched(consumes, top)| ==>
              Dispatched(consumes, top)[a] > Dispatched(consumes, top)[b]
    decreases top
  {
    if top > 0 && !consumes[top - 1] {
      DispatchedIff(consumes, top - 1);
    }
  }

  /** Only the last slot called may have consumed the event; the walk ends there or at the bottom. */
  lemma {:induction false} DispatchedStops(consumes: seq<bool>, top: nat)
    requires top <= |consumes|
    ensures var d := Dispatched(consumes, top);
            && (forall a :: 0 <= a < |d| - 1 ==> !consumes[d[a]])
            && (|d| > 0 ==> consumes[d[|d| - 1]] || d[|d| - 1] == 0)
            && (top > 0 <==> |d| > 0)
    decreases top
  {
    if top > 0 && !consumes[top - 1] {
      DispatchedStops(consumes, top - 1);
    }
  }

  /** The identifiers of the non-null slots, bottom to top. */
  function LiveIds(s: seq<Slot>): seq<nat>
    decreases |s|
  {
    if |s| == 0 then []
    else LiveIds(s[..|s| - 1]) + (if s[|s| - 1].Layer? then [s[|s| - 1].id] else [])
  }

  /** update and render reach exactly the layers in non-null slots, once per slot. */
  lemma {:induction false} LiveIdsMembers(s: seq<Slot>)
    ensures forall x :: x in LiveIds(s) <==> Layer(x) in s
    ensures |LiveIds(s)| == |s| - multiset(s)[Null]
    decreases |s|
  {
    if |s| > 0 {
      var init := s[..|s| - 1];
      LiveIdsMembers(init);
      assert s == init + [s[|s| - 1]];
    }
  }

  /** The position of the first slot equal to x, or |s| when there is none. */
  function FirstIndex(s: seq<Slot>, x: Slot): (r: nat)
    ensures r <= |s|
    ensures r < |s| ==> s[r] == x
    ensures forall k :: 0 <= k < r ==> s[k] != x
    ensures r == |s| <==> x !in s
    decreases |s|
  {
    if |s| == 0 then 0
    else if s[0] == x then 0
    else
      var r := 1 + FirstIndex(s[1..], x);
      assert forall k :: 1 <= k < |s| ==> s[k] == s[1..][k - 1];
      r
  }

  /** The first occurrence of x is at i when x is at i and nowhere before it. */
  lemma FirstIndexAt(s: seq<Slot>, x: Slot, i: nat)
    requires i <= |s| && (i < |s| ==> s[i] == x)
    requires forall k :: 0 <= k < i ==> s[k] != x
    ensures FirstIndex(s, x) == i
  {
  }

  /** The stack with its first occurrence of x erased, the rest kept in order; unchanged without one. */
  function RemoveFirst(s: seq<Slot>, x: Slot): seq<Slot>
  {
    var k := FirstIndex(s, x);
    if k < |s| then s[..k] + s[k + 1..] else s
  }

  /** The length drops by one exactly when x occurs: one occurrence of x goes and nothing else. */
  lemma RemoveFirstCount(s: seq<Slot>, x: Slot)
    ensures |RemoveFirst(s, x)| == if x in s then |s| - 1 else |s|
    ensures multiset(RemoveFirst(s, x)) + (if x in s then multiset{x} else multiset{}) == multiset(s)
  {
    var k := FirstIndex(s, x);
    if k < |s| {
      CutMultiset(s, k);
    }
  }

  class LayerStack {
    var layers: seq<Slot>

    constructor()
      ensures layers == []
    {
      layers := [];
    }

    /**
     * `handleEvent(event)`: i runs in size_t from size - 1 down while i <
     * size, so on an empty stack size - 1 wraps and nothing is called; the
     * walk breaks after the first layer answering Yes.  consumes[i] is the
     * answer slot i's layer gives.  The source dereferences every slot it
     * reaches without a null check, so every slot the walk reaches must hold
     * a layer (by DispatchedIff: every null slot lies below a consuming layer).
     */
    method HandleEvent(consumes: seq<bool>) returns (called: seq<nat>)
      requires |consumes| == |layers| < SizeLimit
      requires forall a :: 0 <= a < |Dispatched(consumes, |layers|)| ==> layers[Dispatched(consumes, |layers|)[a]].Layer?
      ensures called == Dispatched(consumes, |layers|)
    {
      var size: SizeT := |layers|;
      var i := Wrap(size - 1);
      called := [];
      ghost var top: nat := size;
      while i < size
        invariant top <= size
        invariant if top > 0 then i == top - 1 else i == SizeMax
        invariant called + Dispatched(consumes, top) == Dispatched(consumes, size)
        decreases top
      {
        assert Dispatched(consumes, size)[|called|] == i;
        assert layers[i].Layer?;
        called := called + [i];
        if consumes[i] {
          assert called == Dispatched(consumes, size);
          return;
        }
        i, top := Wrap(i - 1), top - 1;
      }
    }

    /** `update(dt)` and `render(target)`: every non-null layer, bottom to top. */
    method ForEachLayer() returns (reached: seq<nat>)
      ensures reached == LiveIds(layers)
    {
      reached := [];
      var i := 0;
      while i < |layers|
        invariant 0 <= i <= |layers|
        invariant reached == LiveIds(layers[..i])
      {
        assert layers[..i + 1][..i] == layers[..i];
        if layers[i].Layer? {
          reached := reached + [layers[i].id];
        }
        i := i + 1;
      }
      assert layers[..i] == layers;
    }

    /** `swap(layer, substitute)`: the first slot holding layer takes the substitute; no match, no change. */
    method Swap(layer: Slot, substitute: Slot)
      modifies this
      ensures var k := FirstIndex(old(layers), layer);
              layers == if k < |old(layers)| then old(layers)[k := substitute] else old(layers)
    {
      var size := |layers|;
      var i := 0;
      while i < size
        invariant 0 <= i <= size && layers == old(layers)
        invariant forall k :: 0 <= k < i ==> layers[k] != layer
      {
        if layers[i] == layer {
          FirstIndexAt(layers, layer, i);
          layers := layers[i := substitute];
          return;
        }
        i := i + 1;
      }
      FirstIndexAt(layers, layer, i);
    }

    /** `remove(layer)`: erase the first slot holding layer; no match, no change. */
    method Remove(layer: Slot)
      modifies this
      ensures layers == RemoveFirst(old(layers), layer)
    {
      var i := 0;
      while i < |layers|
        invariant 0 <= i <= |layers| && layers == old(layers)
        invariant forall k :: 0 <= k < i ==> layers[k] != layer
      {
        if layers[i] == layer {
          FirstIndexAt(layers, layer, i);
          layers := layers[..i] + layers[i + 1..];
          return;
        }
        i := i + 1;
      }
      FirstIndexAt(layers, layer, i);
    }
  }
}

=== FILE: minesweeper.dfy ===
/**
 * The game-phase state machine (src/Game/Minesweeper.cpp): a board plus the
 * phase Empty / Ready / Playing / Lost / Won.  It decides when the board may
 * be resized or re-dealt, moves the mine away from the first click, and ends
 * the game on a revealed mine or when every safe cell is open.
 *
 * The random draws of the board (`placeMines`, `makeSafe`) are parameters;
 * the clock is not modelled.
 */
module Game {
  import opened Grid
  import opened Cells
  import opened Boards

  /** `state_`. */
  datatype Phase = Empty | Ready | Playing | Lost | Won

  /** `isGameOver()`. */
  predicate IsGameOver(p: Phase)
  {
    p == Lost || p == Won
  }

  /** Some opened cell holds a mine. */
  ghost predicate MineShown(s: seq<Cell>)
  {
    exists j :: 0 <= j < |s| && s[j].open && s[j].mined
  }

  /** No cell is opened. */
  ghost predicate NoneOpen(s: seq<Cell>)
  {
    forall j :: 0 <= j < |s| ==> !s[j].open
  }

  /** A board no cell of which is opened or flagged, mined exactly at Floyd's sample of `draws`. */
  ghost predicate Dealt(s: seq<Cell>, mineCount: nat, draws: seq<nat>)
  {
    && mineCount <= |s| && |draws| == mineCount && FloydDraws(|s| - mineCount, draws)
    && (forall j :: 0 <= j < |s| ==> !s[j].open && !s[j].flagged)
    && MinesAre(s, FloydSample(|s| - mineCount, draws, |draws|))
  }

  /** Mining a blank board as `placeMines` does deals it, and shows no mine. */
  lemma DealtAfterClear(s0: seq<Cell>, s: seq<Cell>, mineCount: nat, draws: seq<nat>)
    requires forall j :: 0 <= j < |s0| ==> s0[j] == BlankCell
    requires StatusKept(s0, s) && mineCount <= |s| && |draws| == mineCount && FloydDraws(|s| - mineCount, draws)
    requires MinesAre(s, FloydSample(|s| - mineCount, draws, |draws|))
    ensures Dealt(s, mineCount, draws) && NoneOpen(s) && !MineShown(s)
  {
  }

  /** A count of zero means no cell satisfies the property. */
  lemma {:induction false} CountZero(s: seq<Cell>, p: Cell -> bool)
    requires Count(s, p) == 0
    ensures forall j :: 0 <= j < |s| ==> !p(s[j])
    decreases |s|
  {
    if s != [] {
      CountZero(s[..|s| - 1], p);
      assert forall j :: 0 <= j < |s| - 1 ==> s[j] == s[..|s| - 1][j];
    }
  }

  /**
   * Opening cells from a board that shows no mine: a mine shows afterwards
   * exactly when the reveal opened one.
   */
  lemma MineShownByReveal(s0: seq<Cell>, s: seq<Cell>, mineOpened: bool)
    requires RevealStep(s0, s) && !MineShown(s0) && MineOpenedIs(s0, s, mineOpened)
    ensures mineOpened <==> MineShown(s)
    ensures Count(s, IsMined) == Count(s0, IsMined)
  {
    CountSame(s0, s, IsMined);
    if MineShown(s) {
      var j :| 0 <= j < |s| && s[j].open && s[j].mined;
      assert NewlyOpened(s0, s, j);
    }
  }

  /**
   * The first click on cell `index` of cells s0, n being makeSafe's draw:
   * makeSafe moves the mine away, then the board's open runs on the same cell.
   */
  ghost predicate FirstOpenResult(s0: seq<Cell>, s: seq<Cell>, size: Vec2s, index: nat, n: nat)
    requires |s0| == size.x * size.y && index < |s0|
  {
    exists t :: MadeSafe(s0, t, index, n) && OpenResult(t, s, size, index)
  }

  /** Flagging a cell touches no mine and opens nothing. */
  lemma FlagKeeps(s: seq<Cell>, i: nat)
    requires i < |s|
    ensures Count(s[i := FlagCell(s[i])], IsMined) == Count(s, IsMined)
    ensures MineShown(s[i := FlagCell(s[i])]) == MineShown(s)
    ensures NoneOpen(s[i := FlagCell(s[i])]) == NoneOpen(s)
  {
    var t := s[i := FlagCell(s[i])];
    CountSame(s, t, IsMined);
    if MineShown(t) {
      var j :| 0 <= j < |t| && t[j].open && t[j].mined;
      assert s[j].open && s[j].mined;
    }
    if MineShown(s) {
      var j :| 0 <= j < |s| && s[j].open && s[j].mined;
      assert t[j].open && t[j].mined;
    }
  }

  class Minesweeper {
    var board: Board
    var state: Phase

    /**
     * The board is consistent; outside Empty it has a valid size and holds
     * its mine count; leaving room for at least one safe cell is assumed of
     * every size set; a mine shows exactly when the game is lost; a won game
     * has every safe cell open; and no cell is open before the first click.
     */
    ghost predicate Valid()
      reads this, board, board.cells, board.frontline
    {
      && board.Valid()
      && (!IsSizeValid(board.size) ==> board.size == Vec2s(0, 0))
      && (IsSizeValid(board.size) ==> board.mineCount < board.cells.Length)
      && (state != Empty ==> IsSizeValid(board.size) && Count(board.cells[..], IsMined) == board.mineCount)
      && (state == Lost <==> MineShown(board.cells[..]))
      && (state == Won ==> board.IsWon())
      && (state == Ready ==> NoneOpen(board.cells[..]))
    }

    /** `Minesweeper()`: a fresh unsized board without mines, in Empty. */
    constructor ()
      ensures Valid() && state == Empty && board.size == Vec2s(0, 0) && board.mineCount == 0
      ensures fresh(board) && fresh(board.cells) && fresh(board.frontline)
    {
      board := new Board();
      state := Empty;
    }

    /** `setEasy()`: a fresh, blank beginner board, in Empty. */
    method SetEasy()
      modifies this
      ensures Valid() && state == Empty && fresh(board) && fresh(board.cells) && fresh(board.frontline)
      ensures board.size == Vec2s(9, 9) && board.mineCount == 10
      ensures forall j :: 0 <= j < board.cells.Length ==> board.cells[j] == BlankCell
    {
      board := new Board.EasyBoard();
      state := Empty;
    }

    /** `setMedium()`: a fresh, blank intermediate board, in Empty. */
    method SetMedium()
      modifies this
      ensures Valid() && state == Empty && fresh(board) && fresh(board.cells) && fresh(board.frontline)
      ensures board.size == Vec2s(16, 16) && board.mineCount == 40
      ensures forall j :: 0 <= j < board.cells.Length ==> board.cells[j] == BlankCell
    {
      board := new Board.MediumBoard();
      state := Empty;
    }

    /** `setHard()`: a fresh, blank expert board, in Empty. */
    method SetHard()
      modifies this
      ensures Valid() && state == Empty && fresh(board) && fresh(board.cells) && fresh(board.frontline)
      ensures board.size == Vec2s(30, 16) && board.mineCount == 99
      ensures forall j :: 0 <= j < board.cells.Length ==> board.cells[j] == BlankCell
    {
      board := new Board.HardBoard();
      state := Empty;
    }

    /**
     * `resize(size)`: ignored for an invalid size or during play; otherwise
     * the board takes the new size, all cells blank, and the game is Empty.
     */
    method Resize(size: Vec2s)
      requires Valid()
      requires IsSizeValid(size) ==> board.mineCount < size.x * size.y
      modifies this`state, board
      ensures Valid() && board == old(board) && board.mineCount == old(board.mineCount)
      ensures (board.cells == old(board.cells) && board.frontline == old(board.frontline)) ||
              (fresh(board.cells) && fresh(board.frontline))
      ensures !IsSizeValid(size) || old(state) == Playing ==>
                state == old(state) && board.size == old(board.size) && board.cells[..] == old(board.cells[..])
      ensures IsSizeValid(size) && old(state) != Playing ==>
                && state == Empty && board.size == size
                && forall j :: 0 <= j < board.cells.Length ==> board.cells[j] == BlankCell
    {
      if !IsSizeValid(size) {
        return;
      }
      if state == Playing {
        return;
      }
      board.Resize(size);
      state := Empty;
    }

    /**
     * `restart()`: an unsized board stays Empty; any other is cleared, dealt
     * its mines from `draws`, and the game is Ready.
     */
    method Restart(draws: seq<nat>)
      requires Valid()
      requires IsSizeValid(board.size) ==>
                 |draws| == board.mineCount && FloydDraws(board.cells.Length - board.mineCount, draws)
      modifies this`state, board
      ensures Valid() && board == old(board) && board.size == old(board.size) && board.mineCount == old(board.mineCount)
      ensures (board.cells == old(board.cells) && board.frontline == old(board.frontline)) ||
              (fresh(board.cells) && fresh(board.frontline))
      ensures !IsSizeValid(board.size) ==> state == Empty && board.cells[..] == old(board.cells[..])
      ensures IsSizeValid(board.size) ==> state == Ready && Dealt(board.cells[..], board.mineCount, draws)
    {
      if !IsSizeValid(board.size) {
        state := Empty;
        return;
      }
      board.Clear();
      ghost var s0 := board.cells[..];
      board.PlaceMines(draws);
      state := Ready;
      DealtAfterClear(s0, board.cells[..], board.mineCount, draws);
    }

    /**
     * `open(coordinates)`: an Empty game is restarted first; coordinates off
     * the board change nothing more.  The first click of a Ready game moves
     * the mine away from the clicked cell and starts play; during play the
     * board's reveal runs, and the game is lost when it opened a mine, won
     * when every safe cell is open.  A finished game ignores the call.
     */
    method Open(c: Vec2s, draws: seq<nat>, n: SizeT)
      requires Valid()
      requires IsSizeValid(board.size) ==>
                 |draws| == board.mineCount && FloydDraws(board.cells.Length - board.mineCount, draws)
      requires IsSizeValid(board.size) ==> 1 <= n <= board.cells.Length - board.mineCount
      modifies this`state, board, board.cells, board.frontline
      ensures Valid() && board == old(board) && board.size == old(board.size) && board.mineCount == old(board.mineCount)
      ensures board.cells == old(board.cells) || fresh(board.cells)
      ensures board.frontline == old(board.frontline) || fresh(board.frontline)
      ensures IsGameOver(old(state)) ==> state == old(state) && board.cells[..] == old(board.cells[..])
      ensures old(state) == Empty && !IsSizeValid(board.size) ==> state == Empty && board.cells[..] == old(board.cells[..])
      ensures !IsGameOver(old(state)) && IsSizeValid(board.size) && !AreCoordinatesValid(board.size, c) ==>
                && state == (if old(state) == Empty then Ready else old(state))
                && (old(state) == Empty ==> Dealt(board.cells[..], board.mineCount, draws))
                && (old(state) != Empty ==> board.cells[..] == old(board.cells[..]))
      ensures !IsGameOver(old(state)) && IsSizeValid(board.size) && AreCoordinatesValid(board.size, c) ==>
                && (state == Playing || IsGameOver(state))
                && (state != Lost ==> (state == Won <==> board.IsWon()))
      ensures (old(state) == Empty || old(state) == Ready) && AreCoordinatesValid(board.size, c) ==>
                !board.cells[ToIndex(board.size, c)].mined
      ensures old(state) == Empty && IsSizeValid(board.size) && AreCoordinatesValid(board.size, c) ==>
                exists d :: && |d| == board.cells.Length && Dealt(d, board.mineCount, draws)
                            && FirstOpenResult(d, board.cells[..], board.size, ToIndex(board.size, c), n)
      ensures old(state) == Ready && AreCoordinatesValid(board.size, c) ==>
                FirstOpenResult(old(board.cells[..]), board.cells[..], board.size, ToIndex(board.size, c), n)
      ensures old(state) == Playing && AreCoordinatesValid(board.size, c) ==>
                && MineOpenedIs(old(board.cells[..]), board.cells[..], state == Lost)
                && OpenResult(old(board.cells[..]), board.cells[..], board.size, ToIndex(board.size, c))
    {
      if state == Empty {
        Restart(draws);
      }
      ghost var dealt := board.cells[..];
      Click(c, n);
    }

    /**
     * The part of `open` after the restart: the first click of a Ready game
     * moves the mine away from the clicked cell and starts play; a Playing
     * game reveals, then is lost on a mine or won with every safe cell open.
     */
    method Click(c: Vec2s, n: SizeT)
      requires Valid()
      requires IsSizeValid(board.size) ==> 1 <= n <= board.cells.Length - board.mineCount
      modifies this`state, board, board.cells, board.frontline
      ensures Valid() && board == old(board) && board.size == old(board.size) && board.mineCount == old(board.mineCount)
      ensures board.cells == old(board.cells)
      ensures board.frontline == old(board.frontline) || fresh(board.frontline)
      ensures (old(state) != Ready && old(state) != Playing) || !AreCoordinatesValid(board.size, c) ==>
                state == old(state) && board.cells[..] == old(board.cells[..])
      ensures (old(state) == Ready || old(state) == Playing) && AreCoordinatesValid(board.size, c) ==>
                && (state == Playing || IsGameOver(state))
                && (state != Lost ==> (state == Won <==> board.IsWon()))
      ensures old(state) == Ready && AreCoordinatesValid(board.size, c) ==>
                && !board.cells[ToIndex(board.size, c)].mined
                && FirstOpenResult(old(board.cells[..]), board.cells[..], board.size, ToIndex(board.size, c), n)
      ensures old(state) == Playing && AreCoordinatesValid(board.size, c) ==>
                && MineOpenedIs(old(board.cells[..]), board.cells[..], state == Lost)
                && OpenResult(old(board.cells[..]), board.cells[..], board.size, ToIndex(board.size, c))
    {
      if !AreCoordinatesValid(board.size, c) {
        return;
      }
      var index := ToIndex(board.size, c);
      ghost var s0 := board.cells[..];
      if state == Ready {
        FirstClick(index, n);
      }
      ghost var safe := board.cells[..];
      if state != Playing {
        return;
      }
      Reveal(index);
      assert old(state) == Ready ==> MadeSafe(s0, safe, index, n) && OpenResult(safe, board.cells[..], board.size, index);
    }

    /** The first click: the clicked cell loses its mine, and play starts. */
    method FirstClick(index: nat, n: SizeT)
      requires Valid() && state == Ready && index < board.cells.Length
      requires 1 <= n <= board.cells.Length - board.mineCount
      modifies this`state, board.cells
      ensures Valid() && state == Playing && NoneOpen(board.cells[..])
      ensures MadeSafe(old(board.cells[..]), board.cells[..], index, n)
    {
      board.MakeSafe(index, n);
      state := Playing;
    }

    /** A click during play: the board's reveal, then the game is lost, won, or goes on. */
    method Reveal(index: nat)
      requires Valid() && state == Playing && index < board.cells.Length
      modifies this`state, board, board.cells, board.frontline
      ensures Valid() && board == old(board) && board.size == old(board.size) && board.mineCount == old(board.mineCount)
      ensures board.cells == old(board.cells)
      ensures board.frontline == old(board.frontline) || fresh(board.frontline)
      ensures state == Playing || IsGameOver(state)
      ensures state != Lost ==> (state == Won <==> board.IsWon())
      ensures MineOpenedIs(old(board.cells[..]), board.cells[..], state == Lost)
      ensures OpenResult(old(board.cells[..]), board.cells[..], board.size, index)
      ensures old(board.cells[index].mined) == board.cells[index].mined
    {
      ghost var s := board.cells[..];
      var lost := board.Open(index);
      MineShownByReveal(s, board.cells[..], lost);
      Conclude(lost);
    }

    /** The end of a click during play: lost on a mine, won once every safe cell is open, else still playing. */
    method Conclude(lost: bool)
      requires state == Playing && board.Valid() && IsSizeValid(board.size) && board.mineCount < board.cells.Length
      requires Count(board.cells[..], IsMined) == board.mineCount && (lost <==> MineShown(board.cells[..]))
      modifies this`state
      ensures Valid() && (state == Lost <==> lost) && (state == Playing || IsGameOver(state))
      ensures state != Lost ==> (state == Won <==> board.IsWon())
    {
      if lost {
        state := Lost;
      } else if board.IsWon() {
        state := Won;
      }
    }

    /**
     * `flag(coordinates)`: an Empty game is restarted first; only a Ready or
     * Playing game flags, and only a cell on the board.
     */
    method Flag(c: Vec2s, draws: seq<nat>)
      requires Valid()
      requires IsSizeValid(board.size) ==>
                 |draws| == board.mineCount && FloydDraws(board.cells.Length - board.mineCount, draws)
      modifies this`state, board, board.cells
      ensures Valid() && board == old(board) && board.size == old(board.size) && board.mineCount == old(board.mineCount)
      ensures (board.cells == old(board.cells) && board.frontline == old(board.frontline)) ||
              (fresh(board.cells) && fresh(board.frontline))
      ensures state == if old(state) == Empty && IsSizeValid(board.size) then Ready else old(state)
      ensures (IsGameOver(old(state)) || (old(state) == Empty && !IsSizeValid(board.size)) ||
               (old(state) != Empty && !AreCoordinatesValid(board.size, c))) ==>
                board.cells[..] == old(board.cells[..])
      ensures (old(state) == Ready || old(state) == Playing) && AreCoordinatesValid(board.size, c) ==>
                var i := ToIndex(board.size, c);
                board.cells[..] == old(board.cells[..])[i := FlagCell(old(board.cells[i]))]
      ensures old(state) == Empty && IsSizeValid(board.size) ==>
                && NoneOpen(board.cells[..])
                && MinesAre(board.cells[..], FloydSample(board.cells.Length - board.mineCount, draws, |draws|))
                && forall j :: 0 <= j < board.cells.Length ==>
                     (board.cells[j].flagged <==> AreCoordinatesValid(board.size, c) && j == ToIndex(board.size, c))
    {
      if state == Empty {
        Restart(draws);
      }
      Mark(c);
    }

    /** The part of `flag` after the restart: only a Ready or Playing game flags a cell on the board. */
    method Mark(c: Vec2s)
      requires Valid()
      modifies board, board.cells
      ensures Valid() && state == old(state) && board.size == old(board.size) && board.mineCount == old(board.mineCount)
      ensures board.cells == old(board.cells) && board.frontline == old(board.frontline)
      ensures NoneOpen(board.cells[..]) == old(NoneOpen(board.cells[..]))
      ensures (old(state) != Ready && old(state) != Playing) || !AreCoordinatesValid(board.size, c) ==>
                board.cells[..] == old(board.cells[..])
      ensures (state == Ready || state == Playing) && AreCoordinatesValid(board.size, c) ==>
                var i := ToIndex(board.size, c);
                board.cells[..] == old(board.cells[..])[i := FlagCell(old(board.cells[i]))]
    {
      if state != Ready && state != Playing {
        return;
      }
      if !AreCoordinatesValid(board.size, c) {
        return;
      }
      var index := ToIndex(board.size, c);
      FlagKeeps(board.cells[..], index);
      board.Flag(index);
    }
  }
}

=== FILE: seqs.dfy ===
/** Facts about sequences shared by the container models. */
module Seqs {
  /** Cutting out element k leaves one element fewer: one occurrence of s[k] goes and nothing else. */
  lemma CutMultiset<T>(s: seq<T>, k: nat)
    requires k < |s|
    ensures |s[..k] + s[k + 1..]| == |s| - 1
    ensures multiset(s[..k] + s[k + 1..]) + multiset{s[k]} == multiset(s)
  {
    assert s == s[..k] + [s[k]] + s[k + 1..];
  }
}

=== FILE: snapshot.dfy ===
/**
 * The neighbour visitor of the older board snapshot (src/Board.h, lines
 * 27-52): `foreachNeighbour` hands each in-bounds cell of the 3x3 block
 * around a position, the centre included, to a callback, row above first and
 * left to right.  The callback is foreign code; the model records the indices
 * it is called with, in order.
 */
module Snapshot {
  import opened Grid

  /** The indices of valid positions, in the same order. */
  function Indices(size: Vec2s, vs: seq<Vec2s>): (r: seq<nat>)
    requires forall k :: 0 <= k < |vs| ==> AreCoordinatesValid(size, vs[k])
    ensures |r| == |vs|
    ensures forall k :: 0 <= k < |r| ==> r[k] < size.x * size.y
  {
    seq(|vs|, k requires 0 <= k < |vs| => ToIndex(size, vs[k]))
  }

  /** Appending one valid position appends its index. */
  lemma IndicesSnoc(size: Vec2s, vs: seq<Vec2s>, v: Vec2s)
    requires forall k :: 0 <= k < |vs| ==> AreCoordinatesValid(size, vs[k])
    requires AreCoordinatesValid(size, v)
    ensures Indices(size, vs + [v]) == Indices(size, vs) + [ToIndex(size, v)]
  {
  }

  /** The offset (dc, dr) of step t of the nested loops: three steps of dc per value of dr. */
  function StepOffset(t: nat): Delta
  {
    if t < 3 then (t - 1, -1) else if t < 6 then (t - 4, 0) else (t - 7, 1)
  }

  /** The positions passed to the callback in the first t steps of the nested loops. */
  ghost function Visits(size: Vec2s, c: Vec2s, t: nat): (r: seq<Vec2s>)
    ensures forall k :: 0 <= k < |r| ==> AreCoordinatesValid(size, r[k])
    decreases t
  {
    if t == 0 then []
    else
      var v := Shift(c, StepOffset(t - 1));
      Visits(size, c, t - 1) + (if AreCoordinatesValid(size, v) then [v] else [])
  }

  /** Step t of the loops, at (dc, dr), appends that position when it is on the board. */
  lemma VisitNext(size: Vec2s, c: Vec2s, t: nat, dr: int, dc: int)
    requires -1 <= dr <= 1 && -1 <= dc <= 1 && t == 3 * (dr + 1) + dc + 1
    ensures var v := Vec2s(Wrap(c.x + dc), Wrap(c.y + dr));
            Visits(size, c, t + 1) == Visits(size, c, t) + (if AreCoordinatesValid(size, v) then [v] else [])
  {
    assert StepOffset(t) == (dc, dr);
    assert Shift(c, StepOffset(t)) == Vec2s(Wrap(c.x + dc), Wrap(c.y + dr));
  }

  /** The same step on the indices handed to the callback. */
  lemma VisitIndexNext(size: Vec2s, c: Vec2s, t: nat, dr: int, dc: int, visited: seq<nat>)
    requires -1 <= dr <= 1 && -1 <= dc <= 1 && t == 3 * (dr + 1) + dc + 1
    requires visited == Indices(size, Visits(size, c, t))
    ensures var v := Vec2s(Wrap(c.x + dc), Wrap(c.y + dr));
            && (!AreCoordinatesValid(size, v) ==> visited == Indices(size, Visits(size, c, t + 1)))
            && (AreCoordinatesValid(size, v) ==> visited + [ToIndex(size, v)] == Indices(size, Visits(size, c, t + 1)))
  {
    VisitNext(size, c, t, dr, dc);
    var v := Vec2s(Wrap(c.x + dc), Wrap(c.y + dr));
    if AreCoordinatesValid(size, v) {
      IndicesSnoc(size, Visits(size, c, t), v);
    }
  }

  /** Step t of the loops is the board's offset t. */
  lemma OffsetIsStep(t: nat)
    requires t < 9
    ensures Offsets[t] == StepOffset(t)
  {
  }

  /** The first t steps of the loops visit what the first t offsets of the board's range give. */
  lemma {:induction false} VisitsAreShifts(size: Vec2s, c: Vec2s, t: nat)
    requires t <= 9
    ensures Visits(size, c, t) == ValidShifts(size, c, Offsets[..t])
    decreases t
  {
    if t > 0 {
      VisitsAreShifts(size, c, t - 1);
      OffsetIsStep(t - 1);
      ValidShiftsStep(size, c, Offsets, t - 1);
    }
  }

  /** All nine steps visit the board's neighbour range, in its order. */
  lemma VisitsComplete(size: Vec2s, c: Vec2s, t: nat, visited: seq<nat>)
    requires t == 9 && visited == Indices(size, Visits(size, c, t))
    ensures visited == Indices(size, Neighbours(size, c))
  {
    VisitsAreShifts(size, c, 9);
    assert Offsets[..9] == Offsets;
  }

  /**
   * One pass of the inner loop body at (dc, dr): the position
   * (col + dc, row + dr), computed in size_t, is handed to the callback by
   * index when it is on the board and skipped otherwise.
   */
  method VisitOne(size: Vec2s, col: SizeT, row: SizeT, dr: int, dc: int, visited: seq<nat>, ghost t: nat)
    returns (visited': seq<nat>)
    requires -1 <= dr <= 1 && -1 <= dc <= 1 && t == 3 * (dr + 1) + dc + 1
    requires visited == Indices(size, Visits(size, Vec2s(col, row), t))
    ensures visited' == Indices(size, Visits(size, Vec2s(col, row), t + 1))
  {
    var nCol := Wrap(col + dc);
    var nRow := Wrap(row + dr);
    ghost var c := Vec2s(col, row);
    VisitIndexNext(size, c, t, dr, dc, visited);
    assert Vec2s(nCol, nRow) == Vec2s(Wrap(c.x + dc), Wrap(c.y + dr));
    if !AreCoordinatesValid(size, Vec2s(nCol, nRow)) {
      return visited;
    }
    var nIdx := ToIndex(size, Vec2s(nCol, nRow));
    visited' := visited + [nIdx];
  }

  /**
   * `foreachNeighbour(col, row, func)`: for dr then dc from -1 to 1, one
   * pass of the body above; the result lists the indices the callback is
   * called with, in order.
   */
  method ForeachNeighbour(size: Vec2s, col: SizeT, row: SizeT) returns (visited: seq<nat>)
    ensures visited == Indices(size, Neighbours(size, Vec2s(col, row)))
    ensures forall k :: 0 <= k < |visited| ==> visited[k] < size.x * size.y
  {
    ghost var t := 0;
    visited := [];
    var dr := -1;
    while dr <= 1
      invariant -1 <= dr <= 2 && t == 3 * (dr + 1)
      invariant visited == Indices(size, Visits(size, Vec2s(col, row), t))
    {
      var dc := -1;
      while dc <= 1
        invariant -1 <= dc <= 2 && t == 3 * (dr + 1) + dc + 1
        invariant visited == Indices(size, Visits(size, Vec2s(col, row), t))
      {
        visited := VisitOne(size, col, row, dr, dc, visited, t);
        dc, t := dc + 1, t + 1;
      }
      dr := dr + 1;
    }
    VisitsComplete(size, Vec2s(col, row), t, visited);
  }

  /**
   * `foreachNeighbour(index, func)`: the same visit around column
   * index % width and row index / width.
   */
  method ForeachNeighbourAt(size: Vec2s, index: SizeT) returns (visited: seq<nat>)
    requires 0 < size.x
    ensures visited == Indices(size, Neighbours(size, Vec2s(index % size.x, index / size.x)))
    ensures index < size.x * size.y ==> visited == NeighbourIndices(size, index)
  {
    var col := index % size.x;
    var row := index / size.x;
    visited := ForeachNeighbour(size, col, row);
  }

  /**
   * Around a valid position the visit is the board's neighbour range by
   * index (so each in-bounds cell of the 3x3 block comes exactly once, see
   * NeighbourIndicesMember and NeighbourIndicesNoDup), with between 1 and 9
   * calls, and 9 away from every edge.
   */
  lemma VisitIsNeighbourRange(size: Vec2s, c: Vec2s)
    requires AreCoordinatesValid(size, c)
    ensures Indices(size, Neighbours(size, c)) == NeighbourIndices(size, ToIndex(size, c))
    ensures 1 <= |Indices(size, Neighbours(size, c))| <= 9
    ensures 0 < c.x < size.x - 1 && 0 < c.y < size.y - 1 ==> |Indices(size, Neighbours(size, c))| == 9
  {
    CoordinatesRoundTrip(size, c);
    NeighboursCount(size, c);
  }
}
